=== FILE: README.md ===
# rusting_bitmaps in Dafny

A model of the working core of `rusting_bitmaps`, an early Roaring-bitmap
library in Rust. A Roaring bitmap stores 32-bit values in two levels. The high
16 bits of a value select a key. Under each key a container holds the low 16
bits, either as a sorted array of `u16` values, as a bitset of 1024 `u64`
words, or as runs `Rle16 { value, length }`. Most container operations and
most of `RoaringBitmap` are still `unimplemented!()` stubs. The model covers
the code that does exist:

| module | file | what it models |
|---|---|---|
| `Wrappers` | `wrappers.dfy` | `Option`, the standard library's `Result<usize, usize>` of a slice search, and `Exec` (returns / panics / never returns) |
| `Sequences` | `sequences.dfy` | sorted and strictly ascending sequences, their value sets, and the halving search of `<[T]>::binary_search` |
| `Oracle` | `oracle.dfy` | `compute_result` and `generate_data` of `src/test.rs`, the reference set algebra the tests compare against |
| `ArrayOps` | `array_ops.dfy` | `count_less`, `count_greater`, `advance_until` and `exponential_search` of `src/container/array_ops/mod.rs` |
| `ArrayScalar` | `array_scalar.dfy` | the union merge `or` and `scalar_intersect` of `src/container/array_ops/scalar.rs` |
| `Words` | `words.dfy` | bits of a `u64` word, the four word operations, popcount, and membership of value `v` at bit `v % 64` of word `v / 64` |
| `BitsetSlices` | `bitset_slices.dfy` | the word loops and cardinalities of `src/container/bitset_ops/mod.rs` and `src/container/bitset_ops/scalar.rs` |
| `BitsetAppend` | `bitset_append.dfy` | the append-based kernels and dispatchers of `src/container/bitset_ops.rs` |
| `Bitset` | `bitset.dfy` | `BITSET_SIZE_IN_WORDS`, `new`, `clear` and `set_all` of `src/container/bitset.rs` |
| `ArrayContainers` | `array.dfy` | `new`, `with_range`, `copy_into` and `add_from_range` of `src/container/array.rs` |
| `RunOps` | `run_ops.dfy` | `is_full`, `is_empty` and `union` of `src/container/run_ops/mod.rs` |
| `Roaring` | `roaring.dfy` | the key split and the parallel `keys`/`containers` vectors of `RoaringBitmap` in `src/roaring.rs` |
| `RoaringArrays` | `roaring_array.dfy` | `new`, `append`, `reset`, `clear_containers` and `len` of `src/roaring_array.rs` |

Several routines do not do what their names or comments say. Each of them is
modelled twice. The `...AsWritten` member follows the code line by line, and a
lemma exhibits an input on which it goes wrong. The corrected member carries
the intended property, proved. Both are listed under "Findings".

Some lines do not compile as written. The model reads them as follows.
- `src/container/array_ops/scalar.rs:52` stores the pointer `ptr_b`; it is read as `*ptr_b`.
- `src/container/array_ops/scalar.rs:84` tests an undeclared `i_b`; it is read as `ptr_b < ptr_b_end`.
- `src/container/run_ops/mod.rs:4` calls a `num()` method that slices lack, and assigns `runs.length` with `=`. It is read as `runs.len() == 1 && runs[0].value == 0 && runs[0].length == u16::MAX`.
- `src/container/run_ops/mod.rs:8` also calls the missing `num()`. It is read as `runs.len() == 0`.
- `src/roaring.rs:81` declares a `Self` result that the body never returns. `remove` is read as an in-place method.
- `src/roaring_array.rs` uses a `Key` type that the library never declares. It is read as `u16`, like the keys of `RoaringBitmap`.
- `src/roaring.rs:59, 63, 65, 86, 88` call `add`, `remove` and `cardinality` on containers and build `Container::Array(...)`, but no container type defines those methods: `Container` is a marker trait with no methods (`src/container/mod.rs:13-15`), and the enum `ContainerType` has none either. A container under a key is read as the set of low halves it holds, with `add` as set insertion, `remove` as set removal and `cardinality() == 0` as emptiness.
- `Rle16` is private to `src/container/run.rs:3`, is not imported by `src/container/run_ops/mod.rs:1`, and is not `Copy`, so the copies at `src/container/run_ops/mod.rs:47-53` do not compile. It is read as a copyable public record `{ value, length }`.

Conventions.
- Slices are `seq<int>` or `seq<U16>`, where `U16` is the subset type `0 <= x < 65536`. Words are `seq<bv64>`.
- A routine that writes through `&mut` or a raw pointer returns the new contents. For the `Vec`-pushing kernels the result is the whole vector, and the prior contents stay as a prefix.
- Arithmetic that can overflow is overflow-checked, as in a debug build. A subtraction that would go below zero is `Panics`.
- A loop that can never exit is `Diverges`.
- The random draws of `generate_data` are a parameter.

## Model

| member | source | states |
|---|---|---|
| Sequences.BinarySearch | src/container/array_ops/mod.rs:89 | `Ok(i)` only at a position holding the key; on a sorted slice `Err(i)` is the insertion point, with everything before it smaller and everything from it on larger |
| Sequences.HalvingSearch | src/roaring.rs:240-243 | the standard library's halving loop over a window: `Ok(i)` only inside the window at the key, and on a sorted slice whose elements past the window exceed the key, `Err(i)` is the insertion point of the whole slice |
| Sequences.SearchFindsPresent | src/roaring.rs:240-243 | on a sorted slice the search succeeds exactly when the key is present |
| Sequences.AscendingUnique | src/test.rs:79-80 | two strictly ascending sequences with the same values are the same sequence |
| Oracle.Sort | src/test.rs:60 | the result is sorted and a permutation (same multiset) of the input |
| Oracle.Dedup | src/test.rs:61 | same value set, never longer, first element kept, and strictly ascending when the input is sorted |
| Oracle.GenerateData | src/test.rs:56-63 | whatever is drawn, the result is strictly ascending, holds exactly the drawn values, is no longer than the draws, and stays within the range |
| Oracle.Union | src/test.rs:74-83 | strictly ascending, holding exactly the values of either operand, at most `|a| + |b|` long |
| Oracle.Intersection | src/test.rs:84-107 | only common values, no longer than either operand; on strictly ascending operands it is strictly ascending and holds exactly the common values |
| Oracle.Difference | src/test.rs:108-135 | only values of `a`; on strictly ascending operands it is strictly ascending and holds exactly the values of `a` absent from `b`, the unconsumed tail of `a` included |
| Oracle.SymmetricDifference | src/test.rs:136-168 | on strictly ascending operands it is strictly ascending and holds exactly the values in one operand only, both leftover tails included |
| Oracle.ComputeResult | src/test.rs:66-170 | on strictly ascending operands every operation gives a strictly ascending result whose members are exactly those its truth table admits |
| Oracle.UnionIntersectionCardinality | src/test.rs:74-107 | for deduplicated operands, `|Or| + |And| = |a| + |b|` |
| Oracle.DifferenceIsXorWithIntersection | src/test.rs:108-168 | `AndNot(a, b)` is the same sequence as `Xor(a, And(a, b))` |
| Oracle.UnionIdempotent | src/test.rs:74-83 | the union of a deduplicated sequence with itself is that sequence |
| Oracle.IntersectionIdempotent | src/test.rs:84-107 | the intersection of a deduplicated sequence with itself is that sequence |
| Oracle.PrefixSubset | src/test.rs:259-271 | the first half of a non-empty deduplicated sequence is a subset of it, and the whole is not a subset of that half |
| ArrayOps.SearchCounts | src/container/array_ops/mod.rs:84-104 | read as counts, a match at `i` has `i` smaller and `len - i - 1` larger elements, and an insertion point `i` has `i` smaller and `len - i` larger |
| ArrayOps.CountLessAsWritten | src/container/array_ops/mod.rs:88-93 | a present key gives the number of smaller elements, a missing key gives one more than that |
| ArrayOps.CountLess | src/container/array_ops/mod.rs:84-87 | the number of elements strictly below the key, as documented |
| ArrayOps.CountGreaterAsWritten | src/container/array_ops/mod.rs:99-104 | a present key gives one more than the number of larger elements, a missing key one fewer, and a key above every element panics on underflow |
| ArrayOps.CountGreater | src/container/array_ops/mod.rs:95-98 | the number of elements strictly above the key, as documented |
| ArrayOps.CountsPartition | src/container/array_ops/mod.rs:84-104 | smaller count, larger count and the key itself account for every element |
| ArrayOps.CountLessMissingKeyOffByOne | src/container/array_ops/mod.rs:91 | `count_less([10], 5)` gives 1 where the intended count is 0 |
| ArrayOps.CountGreaterMisses | src/container/array_ops/mod.rs:101-102 | on `[10]`, key 10 gives 1 (intended 0), key 5 gives 0 (intended 1), and key 20 panics |
| ArrayOps.AdvanceUntil | src/container/array_ops/mod.rs:106-157 | an index past the end or already at an element not below `min` comes back unchanged; otherwise the result lies in `[index, len]`, and on a strictly ascending slice every element from `index` up to it is below `min` and the element at it (if any) is not |
| ArrayOps.ExponentialSearchAsWritten | src/container/array_ops/mod.rs:159-175 | `Err(0)` when `size` is 0 or exceeds the length; otherwise it never returns exactly when the first element is below the key, and any answer it gives is at position 0 |
| ArrayOps.ExponentialSearch | src/container/array_ops/mod.rs:159-175 | with the probe starting at 1 and the window's answer shifted back by the window's start: `Err(0)` on the guard, `Ok(i)` only at a position within `size` holding the key, and on a sorted prefix `Err(i)` is the insertion point within `slice[..size]` |
| ArrayOps.ExponentialSearchUnshifted | src/container/array_ops/mod.rs:159-175 | with the probe starting at 1 and line 174's window answer returned unshifted: `Err(0)` on the guard, otherwise the same kind of answer as the corrected search, at the corrected position less the window's start |
| ArrayOps.ExponentialSearchUnshiftedMisplaces | src/container/array_ops/mod.rs:174 | searching `[1, 2, 3, 4, 5]` for 4 reports position 1, which holds 2, where the corrected search reports 3 |
| ArrayOps.Gallop | src/container/array_ops/mod.rs:169-172 | the doubling probe stops within reach of `size`, the previous probe lies on an element below the key, and the stopping probe (if in range) does not |
| ArrayOps.ShiftedAnswer | src/container/array_ops/mod.rs:174 | the window's answer shifted by the window's start is a position within `size` holding the key, or an insertion point for the whole sorted prefix |
| ArrayOps.WindowInsertionPoint | src/container/array_ops/mod.rs:174 | an insertion point found inside the final window is one for the whole sorted prefix |
| ArrayOps.ExponentialSearchStalls | src/container/array_ops/mod.rs:169-172 | searching `[1, 2]` for 2 never returns |
| ArrayScalar.MergeLoop | src/container/array_ops/scalar.rs:39-76 | every step writes exactly one value; the loop stops with one operand exhausted, keeping what was written before |
| ArrayScalar.MergeStepKeepsInv | src/container/array_ops/scalar.rs:41-75 | one step keeps the invariant: the values written are the strictly ascending union of the consumed prefixes and lie below both unconsumed heads |
| ArrayScalar.MergeLoopKeepsInv | src/container/array_ops/scalar.rs:39-76 | the whole loop keeps that invariant |
| ArrayScalar.MergeLength | src/container/array_ops/scalar.rs:39-76 | the loop writes at most as many values as it consumes |
| ArrayScalar.OrAsWritten | src/container/array_ops/scalar.rs:15-92 | an empty `b` gives `a` with count `|a|`, and otherwise an empty `a` gives `b` with count `|b|`; the count agrees with the corrected merge; the buffer is right exactly when it is as long as the count, and otherwise some counted positions were never written |
| ArrayScalar.ScalarOr | src/container/array_ops/scalar.rs:15-92 | with the tail appended at `out + count`, the count is the number of values written, at most `|a| + |b|` |
| ArrayScalar.ScalarOrComputesUnion | src/container/array_ops/scalar.rs:15-92 | on strictly ascending operands the corrected merge writes exactly the reference union and returns its length |
| ArrayScalar.ScalarOrTestCases | src/container/array_ops/scalar.rs:160-209 | two empty operands give nothing, and two copies of `[1, 2, 3, 4]` give `[1, 2, 3, 4]` with count 4 |
| ArrayScalar.ScalarOrInterleaved | src/container/array_ops/scalar.rs:187-215 | `[1, 3, 5, 7, 8, 9]` with `[0, 2, 4, 6]` gives 0 through 9 with count 10 |
| ArrayScalar.OrAsWrittenFailsItsTest | src/container/array_ops/scalar.rs:78-89 | on that test case the as-written buffer is `[7, 8, 9, 3, 4, 5, 6]` with count 10 |
| ArrayScalar.StaleLoop | src/container/array_ops/scalar.rs:111-140 | the as-written loop only ever appends to what was pushed before |
| ArrayScalar.StaleLoopRepeats | src/container/array_ops/scalar.rs:130-139 | once the loop has pushed a value, every later push repeats it |
| ArrayScalar.IntersectAsWritten | src/container/array_ops/scalar.rs:98-142 | nothing is pushed when the operands share no value; otherwise the first value pushed is their smallest common value, and every later push repeats it |
| ArrayScalar.StaleLoopFirst | src/container/array_ops/scalar.rs:111-140 | from any pair of positions the loop pushes nothing when the remaining suffixes share no value, and otherwise first pushes their smallest common value |
| ArrayScalar.IntersectFrom | src/container/array_ops/scalar.rs:111-140 | with the held values reloaded after a match, the loop appends the reference intersection of the unconsumed parts |
| ArrayScalar.Intersect | src/container/array_ops/scalar.rs:94-142 | appends exactly the reference intersection; on strictly ascending operands the appended values are ascending and are exactly the common values |
| ArrayScalar.IntersectAsWrittenRepeats | src/container/array_ops/scalar.rs:130-139 | `[1, 2]` with itself pushes `[1, 1]` where the intersection is `[1, 2]` |
| Words.ApplyBit | src/container/bitset_ops/mod.rs:18-24 | each word operation sets a bit exactly when its set operation's truth table admits the operands' bits |
| Words.Popcount | src/container/bitset_ops/mod.rs:30 | a word has at most 64 set bits |
| Words.CountBitsConstants | src/container/bitset.rs:21-33 | the zero word has no set bit and `u64::MAX` has 64 |
| Words.CountBitsInclusionExclusion | src/container/bitset_ops/mod.rs:37-47 | per word, `popcount(x | y) + popcount(x & y) = popcount(x) + popcount(y)` |
| Words.Cardinality | src/container/bitset_ops/mod.rs:27-34 | the sum of popcounts is at most 64 per word |
| Words.CardinalityAppend | src/container/bitset_ops/mod.rs:27-34 | the cardinality of a concatenation is the sum of the cardinalities |
| Words.CombineContains | src/container/bitset_ops/mod.rs:2-24 | the combined words hold value `v` exactly when the truth table admits `v`'s membership in the operands |
| BitsetSlices.WordLoop | src/container/bitset_ops/mod.rs:2-24 | panics exactly when `out` is shorter than the shorter operand; otherwise the words over the common length become the word-by-word result, holding exactly the admitted values there, and later output words are untouched |
| BitsetSlices.LoopedWords | src/container/bitset_ops/mod.rs:2-24 | once the loop has written the common length, the output's prefix is the combined words, its rest is `out`'s, and the prefix covers exactly the admitted values |
| BitsetSlices.PointerLoop | src/container/bitset_ops/scalar.rs:2-17 | with equal-length operands and room in `out`, each position from the start index becomes `a[i] op b[i]`, and nothing before it or at or beyond `out[|a|]` changes |
| BitsetSlices.PointerOp | src/container/bitset_ops/scalar.rs:19-25 | the first `|a|` output words are the combined words, holding exactly the admitted values, followed by the untouched rest |
| BitsetSlices.CardinalityLoop | src/container/bitset_ops/mod.rs:27-34 | the loop adds up to the cardinality, at most 64 per word (the same loop appears in `src/container/bitset_ops/scalar.rs:27-34`) |
| BitsetSlices.AndCardinality | src/container/bitset_ops/mod.rs:37-47 | the loop adds up to the cardinality of the word-by-word AND over the common prefix |
| BitsetSlices.CardinalityInclusionExclusion | src/container/bitset_ops/mod.rs:27-47 | over the first `n` words, `|A ∪ B| + |A ∩ B| = |A| + |B|` |
| BitsetAppend.PushFrom | src/container/bitset_ops.rs:110-118 | the lock-step loop keeps the prior contents and pushes one evaluated word per common position |
| BitsetAppend.PushCombines | src/container/bitset_ops.rs:143-151 | with a set operation, the lock-step loop pushes the combined words of the common prefix |
| BitsetAppend.TailCombines | src/container/bitset_ops.rs:121-128 | copying the longer operand's tail equals combining it against missing words |
| BitsetAppend.ScalarUnionAsWritten | src/container/bitset_ops.rs:96-130 | an empty `a` pushes `b` twice, an empty `b` pushes `a` twice, and two non-empty operands give the corrected union |
| BitsetAppend.ScalarUnion | src/container/bitset_ops.rs:96-130 | the pushed words are the OR over the longer length and hold exactly the values of either operand |
| BitsetAppend.LoopWithTails | src/container/bitset_ops.rs:106-129 | loop plus both tail copies push the combined words over the longer length, empty operands included |
| BitsetAppend.ScalarIntersect | src/container/bitset_ops.rs:132-153 | nothing is pushed when either operand is empty; otherwise the AND of the common prefix, holding exactly the common values |
| BitsetAppend.ScalarDifferenceAsWritten | src/container/bitset_ops.rs:155-186 | as long as the corrected result, with the same prior contents and tail, but every word of the common prefix zero |
| BitsetAppend.MaskedPrefixZero | src/container/bitset_ops.rs:175 | every word `(a & b) & !b` that the loop pushes is zero |
| BitsetAppend.ScalarDifference | src/container/bitset_ops.rs:155-186 | an empty `a` pushes nothing and an empty `b` pushes `a`; the pushed words are `a & !b` over `a`'s length and hold exactly the values of `a` absent from `b` |
| BitsetAppend.LoopThenTail | src/container/bitset_ops.rs:167-185 | loop plus the copy of `a`'s tail push `a & !b` over `a`'s length |
| BitsetAppend.ScalarSymmetricDifference | src/container/bitset_ops.rs:188-211 | the pushed words are the XOR over the longer length and hold exactly the values in one operand only |
| BitsetAppend.UnionAsWrittenDuplicates | src/container/bitset_ops.rs:98-128 | `[]` with `[1]` pushes `[1, 1]`, which holds 64 though neither operand does; the corrected union pushes `[1]` |
| BitsetAppend.DifferenceAsWrittenLosesValues | src/container/bitset_ops.rs:171-179 | `[1]` minus `[0]` pushes `[0]`, losing value 0; the corrected difference pushes `[1]` |
| BitsetAppend.Dispatch | src/container/bitset_ops.rs:3-45 | prior contents are kept and a SIMD build pushes nothing; a scalar build runs the kernels as written: intersection and symmetric difference push exactly the admitted values, union does so for two nonempty operands and pushes a lone nonempty operand twice, and difference keeps only `a`'s values beyond `b`'s words |
| BitsetAppend.DifferenceAsWrittenWords | src/container/bitset_ops.rs:155-186 | the as-written difference pushes one word per word of `a`: zero where `b` has a word, and `a`'s word past `b`'s end |
| BitsetAppend.DifferenceAsWrittenHolds | src/container/bitset_ops.rs:155-186 | the as-written difference holds exactly the values of `a` at or above `64 * b.len()` |
| Bitset.FullSizeSpansU16 | src/container/bitset.rs:3 | 1024 words: every held value is a 16-bit value, every 16-bit value has a bit, and at most 65536 values are held |
| Bitset.New | src/container/bitset.rs:11-15 | zero words, so no value and cardinality 0 |
| Bitset.Clear | src/container/bitset.rs:21-26 | same word count, no value left, cardinality 0 |
| Bitset.SetAll | src/container/bitset.rs:28-33 | same word count, every value the words span present, cardinality 64 per word |
| Bitset.ZeroCardinality | src/container/bitset.rs:21-26 | all-zero words have cardinality 0 |
| Bitset.FullCardinality | src/container/bitset.rs:28-33 | all-ones words have cardinality 64 per word |
| ArrayContainers.AsU16 | src/container/array.rs:29 | the cast keeps values below 65536 unchanged |
| ArrayContainers.New | src/container/array.rs:11-21 | an empty array |
| ArrayContainers.Stepped | src/container/array.rs:74-76 | the pushes of `(i..max).step_by(step)`: position `k` holds `i + k * step` cast to `u16`, every offset is below `max`, and the next one would not be |
| ArrayContainers.SteppedValues | src/container/array.rs:74-76 | below 65536 the pushes are strictly ascending, within `[i, max)`, and exactly `i + k * step` |
| ArrayContainers.WithRange | src/container/array.rs:23-33 | panics exactly when `max < min`; otherwise `max - min` values, position `k` holding `min + k` cast to `u16` |
| ArrayContainers.WithRangeValues | src/container/array.rs:23-33 | for `min <= max <= 65536` the array is strictly ascending and holds exactly `min <= x < max` |
| ArrayContainers.WithRangeWraps | src/container/array.rs:28-30 | `with_range(65535, 65537)` holds 65535 and then 0 |
| ArrayContainers.CopyInto | src/container/array.rs:50-60 | the target ends with exactly the source's values, whatever it held |
| ArrayContainers.AddFromRange | src/container/array.rs:62-77 | panics exactly on a zero step; otherwise the existing values stay as a prefix, something is appended whenever `min < max`, and the appended values are `min, min + step, …` below `max`, each cast to `u16` |
| ArrayContainers.AddFromRangeAppends | src/container/array.rs:62-77 | within the 16-bit range the appended values ascend and are exactly the `x` with `min <= x < max` and `x - min` a multiple of the step |
| ArrayContainers.AddFromRangeIsAppend | src/container/array.rs:62-77 | with a nonzero step the call returns, and what it appends after the existing values is exactly the stepped loop's pushes |
| ArrayContainers.SteppedExactly | src/container/array.rs:74-76 | below 65536 the stepped loop's pushes ascend and are exactly the values of `min .. max` a whole number of steps above `min` |
| ArrayContainers.SteppedSound | src/container/array.rs:74-76 | every value the stepped loop pushes lies in `min .. max` a whole number of steps above `min` |
| ArrayContainers.SteppedComplete | src/container/array.rs:74-76 | every value in `min .. max` a whole number of steps above `min` is pushed |
| ArrayContainers.AddFromRangeKeepsOrder | src/container/array.rs:74-76 | `add_from_range(0, 4, 2)` on `[5]` gives `[5, 0, 2]`: neither sorted nor deduplicated |
| RunOps.IsEmptyMeansNoValues | src/container/run_ops/mod.rs:7-9 | no runs exactly when no value is held |
| RunOps.IsFullMeansAllValues | src/container/run_ops/mod.rs:3-5 | for normalized runs, full exactly when every 16-bit value is held |
| RunOps.FullCoversAll | src/container/run_ops/mod.rs:25-34 | a full operand holds every 16-bit value |
| RunOps.Union | src/container/run_ops/mod.rs:11-67 | panics exactly when `out` is not empty; never holds a value outside the operands; an empty `a` gives `b` itself, then an empty `b` gives `a`, a full `a` gives `a` and a full `b` gives `b`, each holding exactly the union; when neither operand is empty or full and it returns, the result is the one run with the smaller start; never returns exactly when the pushed run's operand has more runs |
| RunOps.UnionDropsSecondOperand | src/container/run_ops/mod.rs:47-65 | `[(0,0)]` with `[(5,0)]` returns only `[(0,0)]`, losing 5 |
| RunOps.UnionHangs | src/container/run_ops/mod.rs:63-65 | `[(0,0),(10,0)]` with `[(5,0)]` never returns |
| Roaring.SplitRecombines | src/roaring.rs:56-57 | for `x < 2^32`, `key * 65536 + low == x` |
| Roaring.SplitIsInjective | src/roaring.rs:56-57 | below `2^32` two values share key and low half exactly when they are equal |
| Roaring.SplitTruncates | src/roaring.rs:56 | `2^32` and 0 share key and low half |
| Roaring.New | src/roaring.rs:27-37 | well formed and holding nothing |
| Roaring.GetIndex | src/roaring.rs:240-243 | `Some(i)` only at a position holding the key; on sorted keys `Some` exactly when the key is present |
| Roaring.LookupIsHolds | src/roaring.rs:240-243 | on a well-formed bitmap a lookup through `get_index` sees exactly what the bitmap holds |
| Roaring.AddAsWritten | src/roaring.rs:55-68 | one container per key is kept; the value is held afterwards and every other value is held exactly as before; a found key keeps the keys and changes only its own container, which gains `low`; a missed key is pushed with `{low}` at the end of both vectors |
| Roaring.AddAsWrittenInOrder | src/roaring.rs:61-67 | the keys stay ascending when the new key exceeds all present keys |
| Roaring.AddAsWrittenLosesValue | src/roaring.rs:61-67 | adding 65536, 0, 65537 gives keys `[1, 0, 1]`, and 65536, though held, is no longer found |
| Roaring.DuplicateKeyHidesValue | src/roaring.rs:240-243 | with keys `[1, 0, 1]` the search for key 1 lands on the last entry |
| Roaring.Add | src/roaring.rs:55-68 | inserting a new key at its insertion point keeps the bitmap well formed, and afterwards it holds exactly what it held plus the added value |
| Roaring.AddToExisting | src/roaring.rs:58-60 | adding under a present key keeps the bitmap well formed and adds exactly that value |
| Roaring.AddNewKey | src/roaring.rs:61-67 | inserting a fresh entry at the insertion point keeps the bitmap well formed and adds exactly that value |
| Roaring.InsertKeepsAscending | src/roaring.rs:61-67 | a key inserted at its insertion point keeps the keys ascending |
| Roaring.RemoveAsWritten | src/roaring.rs:81-93 | a missed key leaves the bitmap unchanged; an emptied container pops the last entry of both vectors, leaving the other containers (and the emptied one, if it was not last) in place; otherwise the found container loses the low half and every other container is unchanged |
| Roaring.RemoveAsWrittenLosesValue | src/roaring.rs:88-91 | with keys `[0, 1]` each holding 1, removing 1 drops 65537 and keeps an empty container |
| Roaring.Remove | src/roaring.rs:81-93 | deleting the emptied entry itself keeps the bitmap well formed, and afterwards it holds exactly what it held minus the removed value |
| Roaring.RemoveAbsent | src/roaring.rs:85 | when the search misses, the removed value was not held |
| Roaring.RemoveFromEntry | src/roaring.rs:86 | taking a value out of a container that stays non-empty removes exactly that value |
| Roaring.RemoveEntry | src/roaring.rs:88-91 | deleting the emptied entry keeps the bitmap well formed and removes exactly that value |
| Roaring.Clear | src/roaring.rs:133-136 | well formed and holding nothing |
| Roaring.RemoveUndoesAdd | src/roaring.rs:55-93 | removing a value just added to a bitmap that lacked it gives back the original values |
| RoaringArrays.New | src/roaring_array.rs:10-22 | no keys and no containers |
| RoaringArrays.Append | src/roaring_array.rs:70-73 | `len` grows by one, key and container land at the end, and earlier entries keep their positions |
| RoaringArrays.AppendKeepsPairing | src/roaring_array.rs:70-73 | appends keep one key per container |
| RoaringArrays.Reset | src/roaring_array.rs:49-52 | no keys and no containers |
| RoaringArrays.ClearContainers | src/roaring_array.rs:41-43 | `len` becomes 0 and the keys are kept |
| RoaringArrays.ClearContainersBreaksPairing | src/roaring_array.rs:41-43 | on a store holding keys, the keys no longer pair with containers afterwards |

## Left out

- SIMD kernels: `src/container/bitset_ops/simd/`, `src/container/bitset_ops/vector.rs`, `src/container/array_ops/sse.rs`, `src/container/array_ops/avx.rs`, `src/container/array_ops/simd/`, `src/simd.rs` and `src/container/algorithm.rs`. They use x86 intrinsics and unaligned raw-pointer arithmetic, which have no counterpart here. `BitsetAppend.Dispatch` gives a SIMD build the empty-bodied kernels that `src/container/bitset_ops.rs` calls.
- The array dispatchers `or`/`and`/`and_not`/`xor` at `src/container/array_ops/mod.rs:15-80` call kernels that `scalar.rs` and `sse.rs` do not define (`scalar::and`, `sse::or`, …), and their AVX arms test a misspelled `target_feaure` key. The scalar `or` they select is modelled directly. `src/container/array_ops/simd.rs` has empty bodies.
- `src/utils.rs` (`mem_equals`): byte-level slice comparison.
- `src/lib.rs` (`Aligned`): an alignment wrapper that only forwards to the value it holds.
- `src/statistics.rs`: a zeroed record.
- Test plumbing: the random generator of `generate_data`, `select_range`, the `op_test` driver, `src/test/mod.rs` and `benches/queries.rs`. The draws are a parameter of `Oracle.GenerateData`.
- The `unimplemented!()` stubs of `RoaringBitmap`, `RoaringArray`, the bitset, array and run containers, and the container conversions.
- `Display` for `RoaringBitmap`: string output.
- Capacity handling: `with_capacity`, `capacity`, `reserve` and `shrink_to_fit` change capacity only. Capacities are not modelled, so these have no members. The same holds for `ArrayContainer::union` (`src/container/array.rs:79-87`), whose body only reserves room and leaves the target's contents as they were.
- `RoaringArray::clear` (`src/roaring_array.rs:37-39`) has an empty body. A call leaves the store as it was, so it has no member.
- The run-container `intersect`, `difference` and `symmetric_difference` (`src/container/run_ops/mod.rs:69-79`) have empty bodies. They leave `out` as it was, so they have no members.
- The run-container union has no corrected member: the source's merge loop body is empty, so there is no merge rule to follow.
- Container kinds under a key: `Roaring` treats a container as the set of low halves it holds. The source never defines `add`, `remove` or `cardinality` on its container types, so which concrete kind (array, bitset, run) holds a key's values, and any conversion between kinds, is not modelled.
- Words.Cardinality: the source accumulates popcounts in a `u32`. The model counts with unbounded integers, which agree while fewer than 2^32 bits are set; a full-size bitset has 2^16.
- ArrayContainers.WithRange: follows overflow-checked arithmetic, so `max < min` panics. In a build without overflow checks, `max == min - 1` wraps the capacity `max - min + 1` to 0 and returns an empty array, while any other `max < min` still fails when it allocates.
- ArrayOps.CountGreaterAsWritten: the underflow of `slice.len() - (index + 1)` is a panic here. In a build without overflow checks it wraps to a huge count.
- Sequences.BinarySearch: follows the halving loop of the standard library of the time. On a sorted slice any correct search gives the same `Err` index, but the `Ok` index among duplicates and the result on unsorted keys depend on this loop. `Roaring.DuplicateKeyHidesValue` relies on it.
- BitsetSlices.PointerLoop: the `debug_assert!` on equal lengths and the caller's promise that `out` has room are preconditions. A write past the buffer is undefined behaviour, which is not modelled.

## Findings

| source | as written | input that shows it | evidently intended | confidence | as-written member | corrected member |
|---|---|---|---|---|---|---|
| src/container/array_ops/scalar.rs:78-89 | the leftover tail is copied to `out` instead of `out.add(count)` | `a = [1,3,5,7,8,9]`, `b = [0,2,4,6]` leaves `[7,8,9,3,4,5,6]` with count 10 | append the tail after the `count` values already written, giving 0..9 | high; not executed | ArrayScalar.OrAsWrittenFailsItsTest | ArrayScalar.ScalarOrComputesUnion |
| src/container/array_ops/scalar.rs:130-139 | after a match `v_a` and `v_b` are never reloaded, and the exit test is `i_a > a.len()` | `[1, 2]` with `[1, 2]` pushes `[1, 1]` | reload both values and stop when either index reaches its end, giving `[1, 2]` | high; not executed | ArrayScalar.IntersectAsWrittenRepeats | ArrayScalar.Intersect |
| src/container/array_ops/mod.rs:91 | a missing key returns `index + 1` | `count_less([10], 5)` returns 1 | the insertion point itself, the number of smaller elements (0) | high; not executed | ArrayOps.CountLessMissingKeyOffByOne | ArrayOps.CountLess |
| src/container/array_ops/mod.rs:101-102 | a present key returns `len - index`, a missing one `len - (index + 1)` | on `[10]`: key 10 gives 1, key 5 gives 0, key 20 underflows | `len - index - 1` and `len - index` | high; not executed | ArrayOps.CountGreaterMisses | ArrayOps.CountGreater |
| src/container/array_ops/mod.rs:169-172 | the probe starts at 0 and is doubled, so it never moves | `exponential_search([1, 2], 2, 2)` never returns | start the probe at 1 | high; not executed | ArrayOps.ExponentialSearchStalls | ArrayOps.ExponentialSearch |
| src/container/array_ops/mod.rs:174 | the window's `binary_search` result is returned as it comes, an index into the window `slice[bound / 2 ..]` (hidden while the probe stays at 0, since the window then starts at 0) | with the probe starting at 1, `exponential_search([1, 2, 3, 4, 5], 5, 4)` gives `Ok(1)`, and `slice[1]` is 2 | add `bound / 2` to the index, giving `Ok(3)` | high; not executed | ArrayOps.ExponentialSearchUnshiftedMisplaces | ArrayOps.ExponentialSearch |
| src/container/bitset_ops.rs:98-128 | the empty-operand copies do not return, and the tail copies then push the operand again | `scalar_union([], [1])` pushes `[1, 1]` | return after the copy, pushing `[1]` | high; not executed | BitsetAppend.UnionAsWrittenDuplicates | BitsetAppend.ScalarUnion |
| src/container/bitset_ops.rs:175 | pushes `(a & b) & !b`, always zero | `scalar_difference([1], [0])` pushes `[0]` | push `a & !b`, giving `[1]` | high; not executed | BitsetAppend.DifferenceAsWrittenLosesValues | BitsetAppend.ScalarDifference |
| src/roaring.rs:61-67 | a new key is pushed at the end of the keys, which `get_index` then searches as if sorted | `add(65536)`, `add(0)`, `add(65537)` gives keys `[1, 0, 1]`, and 65536 is no longer found | insert the new key and container at the insertion point | high; not executed | Roaring.AddAsWrittenLosesValue | Roaring.Add |
| src/roaring.rs:88-91 | an emptied container pops the last entry of both vectors | keys `[0, 1]` each holding 1: `remove(1)` drops 65537 and keeps an empty container | delete entry `i`, the one that became empty | high; not executed | Roaring.RemoveAsWrittenLosesValue | Roaring.Remove |

=== FILE: array.dfy ===
/** The sorted-array container of `src/container/array.rs`: a vector of
    `u16` values. Only contents are modelled; capacities and reservations
    are not. */
module ArrayContainers {
  import opened Wrappers
  import opened Sequences

  /** The `array` field is named `values` here, `array` being a Dafny keyword. */
  datatype ArrayContainer = ArrayContainer(values: seq<U16>)

  /** `len`: the number of stored values. */
  function Len(c: ArrayContainer): nat {
    |c.values|
  }

  /** `i as u16` on a `usize`: the low 16 bits. */
  function AsU16(i: nat): (r: U16)
    ensures i < 0x1_0000 ==> r == i
  {
    i % 0x1_0000
  }

  /** `new` (and `with_capacity`): an empty array. */
  function New(): (c: ArrayContainer)
    ensures Len(c) == 0
    ensures forall x :: x !in c.values
  {
    ArrayContainer([])
  }

  /** The pushes of a loop over `(i..max).step_by(step)`: `i`, `i + step`, …
      below `max`, each cast to `u16`. */
  function Stepped(i: nat, max: nat, step: nat): (r: seq<U16>)
    requires step > 0
    ensures i >= max ==> r == []
    ensures i < max ==> |r| > 0 && r[0] == AsU16(i)
    ensures forall k :: 0 <= k < |r| ==> i + k * step < max
    ensures |r| > 0 ==> i + |r| * step >= max
    ensures forall k :: 0 <= k < |r| ==> r[k] == AsU16(i + k * step)
    decreases max - i
  {
    if i >= max then []
    else
      var rest := Stepped(i + step, max, step);
      StepOffsets(i, step, |rest|);
      [AsU16(i)] + rest
  }

  /** One step further along is one more multiple of the step. */
  lemma StepOffsets(i: nat, step: nat, n: nat)
    ensures forall k: nat :: k <= n ==> (i + step) + k * step == i + (k + 1) * step
  {
    forall k: nat | k <= n
      ensures (i + step) + k * step == i + (k + 1) * step
    {
      MulSucc(k, step);
    }
  }

  lemma MulSucc(k: nat, step: nat)
    ensures (k + 1) * step == k * step + step
  {
  }

  /** Without truncation the pushes are strictly ascending, start at `i`, and
      are exactly `i + k * step` for each position `k`. */
  lemma {:induction false} SteppedValues(i: nat, max: nat, step: nat)
    requires step > 0 && max <= 0x1_0000
    ensures Ascending(Stepped(i, max, step))
    ensures forall y :: y in Stepped(i, max, step) ==> i <= y < max
    ensures forall k :: 0 <= k < |Stepped(i, max, step)| ==> Stepped(i, max, step)[k] == i + k * step
    decreases max - i
  {
    var r := Stepped(i, max, step);
    if i < max {
      var rest := Stepped(i + step, max, step);
      SteppedValues(i + step, max, step);
      assert r == [i] + rest;
      AscendingCons(i, rest);
    }
  }

  /** `with_range`: the capacity expression `max - min + 1` underflows and
      panics when `max < min`; otherwise the array holds `min .. max - 1`,
      each cast to `u16`, so it has `max - min` values. */
  function WithRange(min: nat, max: nat): (r: Exec<ArrayContainer>)
    ensures r.Panics? <==> max < min
    ensures !r.Diverges?
    ensures r.Returns? ==> Len(r.value) == max - min
    ensures r.Returns? ==> forall k :: 0 <= k < max - min ==> r.value.values[k] == AsU16(min + k)
  {
    if max < min then Panics
    else
      var s := Stepped(min, max, 1);
      assert |s| == max - min by {
        if |s| > 0 {
          assert min + (|s| - 1) < max;
        }
      }
      Returns(ArrayContainer(s))
  }

  /** Within the 16-bit range, `with_range` yields the strictly ascending
      array of exactly the values `min <= x < max`. */
  lemma WithRangeValues(min: nat, max: nat)
    requires min <= max <= 0x1_0000
    ensures WithRange(min, max).Returns?
    ensures Ascending(WithRange(min, max).value.values)
    ensures forall x :: x in WithRange(min, max).value.values <==> min <= x < max
  {
    var r := WithRange(min, max).value.values;
    SteppedValues(min, max, 1);
    forall x | min <= x < max ensures x in r {
      assert r[x - min] == x;
    }
  }

  /** Past the 16-bit range the cast wraps around: `with_range(65535, 65537)`
      holds 65535 and then 0. */
  lemma WithRangeWraps()
    ensures WithRange(0xFFFF, 0x1_0001) == Returns(ArrayContainer([0xFFFF, 0]))
  {
    var s := Stepped(0xFFFF, 0x1_0001, 1);
    assert Stepped(0x1_0001, 0x1_0001, 1) == [];
    assert Stepped(0x1_0000, 0x1_0001, 1) == [0];
    assert s == [0xFFFF, 0];
  }

  /** `copy_into`: the target's contents are replaced by a copy of the
      source's, whatever the target held before. */
  function CopyInto(source: ArrayContainer, target: ArrayContainer): (r: ArrayContainer)
    ensures Len(r) == Len(source)
    ensures forall k :: 0 <= k < Len(r) ==> r.values[k] == source.values[k]
  {
    ArrayContainer(source.values)
  }

  /** `add_from_range`: `step_by` panics on a zero step; otherwise the
      existing values stay as a prefix and `min, min + step, …` below `max`
      are appended, each cast to `u16`, with neither sorting nor removal of
      duplicates. */
  function AddFromRange(c: ArrayContainer, min: nat, max: nat, step: nat): (r: Exec<ArrayContainer>)
    ensures r.Panics? <==> step == 0
    ensures !r.Diverges?
    ensures r.Returns? ==> Len(r.value) >= Len(c) && r.value.values[..Len(c)] == c.values
    ensures r.Returns? ==> forall j :: 0 <= j < Len(r.value) - Len(c) ==>
              min + j * step < max &&
              r.value.values[Len(c) + j] == AsU16(min + j * step)
    ensures r.Returns? && min < max ==> Len(r.value) > Len(c)
    ensures r.Returns? && Len(r.value) > Len(c) ==> min + (Len(r.value) - Len(c)) * step >= max
  {
    if step == 0 then Panics
    else
      var added := Stepped(min, max, step);
      var s := c.values + added;
      assert s[..Len(c)] == c.values;
      assert forall j :: 0 <= j < |added| ==> s[Len(c) + j] == added[j];
      Returns(ArrayContainer(s))
  }

  /** `s` ascends and holds exactly the values of `min .. max` that lie a
      whole number of steps above `min`. */
  ghost predicate Progression(s: seq<U16>, min: nat, max: nat, step: nat)
    requires step > 0
  {
    Ascending(s) && forall x :: x in s <==> min <= x < max && (x - min) % step == 0
  }

  /** Within the 16-bit range, `add_from_range` appends, in ascending order,
      exactly the values `x` with `min <= x < max` that lie a whole number of
      steps above `min`. */
  lemma AddFromRangeAppends(c: ArrayContainer, min: nat, max: nat, step: nat)
    requires step > 0 && max <= 0x1_0000
    ensures AddFromRange(c, min, max, step).Returns?
    ensures Progression(AddFromRange(c, min, max, step).value.values[Len(c)..], min, max, step)
  {
    AddFromRangeIsAppend(c, min, max, step);
    SteppedExactly(min, max, step);
  }

  /** With a nonzero step, `add_from_range` appends the stepped pushes. */
  lemma AddFromRangeIsAppend(c: ArrayContainer, min: nat, max: nat, step: nat)
    requires step > 0
    ensures AddFromRange(c, min, max, step).Returns?
    ensures AddFromRange(c, min, max, step).value.values[Len(c)..] == Stepped(min, max, step)
  {
    var s := Stepped(min, max, step);
    assert AddFromRange(c, min, max, step) == Returns(ArrayContainer(c.values + s));
    assert (c.values + s)[Len(c)..] == s;
  }

  /** Below 65536 the stepped pushes ascend and are exactly the values of
      `min .. max` a whole number of steps above `min`. */
  lemma SteppedExactly(min: nat, max: nat, step: nat)
    requires step > 0 && max <= 0x1_0000
    ensures Progression(Stepped(min, max, step), min, max, step)
  {
    SteppedValues(min, max, step);
    SteppedSound(min, max, step);
    forall x | min <= x < max && (x - min) % step == 0
      ensures x in Stepped(min, max, step)
    {
      SteppedComplete(min, max, step, x);
    }
  }

  /** Every pushed value lies a whole number of steps above the start. */
  lemma SteppedSound(min: nat, max: nat, step: nat)
    requires step > 0 && max <= 0x1_0000
    ensures forall x :: x in Stepped(min, max, step) ==> min <= x < max && (x - min) % step == 0
  {
    var s := Stepped(min, max, step);
    SteppedValues(min, max, step);
    forall x | x in s
      ensures min <= x < max && (x - min) % step == 0
    {
      var k :| 0 <= k < |s| && s[k] == x;
      ModUnique(x - min, step, k, 0);
    }
  }

  /** Every value below `max` a whole number of steps above the start is
      pushed. */
  lemma SteppedComplete(min: nat, max: nat, step: nat, x: nat)
    requires step > 0 && max <= 0x1_0000
    requires min <= x < max && (x - min) % step == 0
    ensures x in Stepped(min, max, step)
  {
    var s := Stepped(min, max, step);
    SteppedValues(min, max, step);
    var k := (x - min) / step;
    DivExact(x - min, step);
    assert k < |s| by {
      if k >= |s| {
        MulMonotone(|s|, k, step);
      }
    }
    assert s[k] == x;
  }

  lemma MulMonotone(j: nat, k: nat, step: nat)
    requires j <= k
    ensures j * step <= k * step
  {
  }

  lemma MulAtLeast(d: int, b: int)
    requires d >= 1 && b > 0
    ensures d * b >= b
  {
  }

  /** Euclidean remainders are unique: `q * b + r` with `0 <= r < b` leaves
      remainder `r`. */
  lemma ModUnique(a: int, b: int, q: int, r: int)
    requires b > 0 && a == q * b + r && 0 <= r < b
    ensures a % b == r
  {
    var q', r' := a / b, a % b;
    assert a == q' * b + r';
    assert (q - q') * b == r' - r;
    if q > q' {
      MulAtLeast(q - q', b);
    } else if q < q' {
      MulAtLeast(q' - q, b);
    }
  }

  lemma DivExact(d: nat, b: nat)
    requires b > 0 && d % b == 0
    ensures d == (d / b) * b
  {
  }

  /** Appending to an existing array: `add_from_range(0, 4, 2)` on `[5]`
      gives `[5, 0, 2]`, which is neither sorted nor checked for duplicates. */
  lemma AddFromRangeKeepsOrder()
    ensures AddFromRange(ArrayContainer([5]), 0, 4, 2) == Returns(ArrayContainer([5, 0, 2]))
  {
    var s := Stepped(0, 4, 2);
    assert Stepped(4, 4, 2) == [];
    assert Stepped(2, 4, 2) == [2];
    assert s == [0, 2];
    assert [5] + s == [5, 0, 2];
  }
}

=== FILE: array_ops.dfy ===
/** Search helpers over sorted `u16` slices (`src/container/array_ops/mod.rs`):
    rank counts, the galloping `advance_until`, and `exponential_search`.
    Where the code miscounts or fails to advance, the routine is modelled as
    written and beside it a corrected routine that meets the documented
    intent. */
module ArrayOps {
  import opened Wrappers
  import opened Sequences

  /** Reference count: how many elements are strictly below `key`. */
  function CountBelow(s: seq<int>, key: int): nat {
    if |s| == 0 then 0 else (if s[0] < key then 1 else 0) + CountBelow(s[1..], key)
  }

  /** Reference count: how many elements are strictly above `key`. */
  function CountAbove(s: seq<int>, key: int): nat {
    if |s| == 0 then 0 else (if s[0] > key then 1 else 0) + CountAbove(s[1..], key)
  }

  /** If the elements before position `i` are below `key` and the rest are not,
      exactly `i` elements are below `key` and `|s| - i` are not. */
  lemma {:induction false} CountsAtSplit(s: seq<int>, key: int, i: nat)
    requires i <= |s|
    requires forall k :: 0 <= k < i ==> s[k] < key
    requires forall k :: i <= k < |s| ==> s[k] > key
    ensures CountBelow(s, key) == i
    ensures CountAbove(s, key) == |s| - i
  {
    if |s| > 0 {
      if i > 0 {
        CountsAtSplit(s[1..], key, i - 1);
      } else {
        CountsAtSplit(s[1..], key, 0);
      }
    }
  }

  /** The counts around a present key: it sits at position `i`, with every
      element before it smaller and every element after it larger. */
  lemma CountsAroundMatch(s: seq<int>, key: int, i: nat)
    requires Ascending(s) && i < |s| && s[i] == key
    ensures CountBelow(s, key) == i
    ensures CountAbove(s, key) == |s| - i - 1
  {
    CountsAtSplit(s[..i], key, i);
    CountsAtSplit(s[i + 1..], key, 0);
    CountsAppend(s[..i], s[i..], key);
    CountsAppend([s[i]], s[i + 1..], key);
    assert s == s[..i] + s[i..];
    assert s[i..] == [s[i]] + s[i + 1..];
  }

  lemma {:induction false} CountsAppend(s: seq<int>, t: seq<int>, key: int)
    ensures CountBelow(s + t, key) == CountBelow(s, key) + CountBelow(t, key)
    ensures CountAbove(s + t, key) == CountAbove(s, key) + CountAbove(t, key)
  {
    if |s| > 0 {
      CountsAppend(s[1..], t, key);
      assert (s + t)[1..] == s[1..] + t;
    } else {
      assert s + t == t;
    }
  }

  /** What the search yields, read as counts: a match at `i` has `i` smaller
      elements, an insertion point `i` has `i` smaller elements and none equal. */
  lemma SearchCounts(s: seq<int>, key: int)
    requires Ascending(s)
    ensures BinarySearch(s, key).Ok? ==>
              key in s &&
              CountBelow(s, key) == BinarySearch(s, key).index &&
              CountAbove(s, key) == |s| - BinarySearch(s, key).index - 1
    ensures BinarySearch(s, key).Err? ==>
              key !in s &&
              CountBelow(s, key) == BinarySearch(s, key).index &&
              CountAbove(s, key) == |s| - BinarySearch(s, key).index
  {
    AscendingIsSorted(s);
    SearchFindsPresent(s, key);
    var r := BinarySearch(s, key);
    if r.Ok? {
      CountsAroundMatch(s, key, r.index);
    } else {
      CountsAtSplit(s, key, r.index);
    }
  }

  /** `count_less` as written: a present key yields its index, but a missing
      key yields its insertion point plus one, one more than the number of
      smaller elements. */
  function CountLessAsWritten(slice: seq<U16>, key: U16): (r: nat)
    requires Ascending(slice)
    ensures key in slice ==> r == CountBelow(slice, key)
    ensures key !in slice ==> r == CountBelow(slice, key) + 1
  {
    SearchCounts(slice, key);
    match BinarySearch(slice, key)
    case Ok(index) => index
    case Err(index) => index + 1
  }

  /** `count_less` as its documentation describes it: the number of elements
      strictly below `key`. */
  function CountLess(slice: seq<U16>, key: U16): (r: nat)
    requires Ascending(slice)
    ensures r == CountBelow(slice, key)
    ensures r <= |slice|
  {
    SearchCounts(slice, key);
    match BinarySearch(slice, key)
    case Ok(index) => index
    case Err(index) => index
  }

  /** `count_greater` as written: a present key is counted among the greater
      elements, a missing key loses one greater element, and a key above every
      element makes `slice.len() - (index + 1)` underflow, which panics. */
  function CountGreaterAsWritten(slice: seq<U16>, key: U16): (r: Exec<nat>)
    requires Ascending(slice)
    ensures key in slice ==> r == Returns(CountAbove(slice, key) + 1)
    ensures key !in slice && CountAbove(slice, key) > 0 ==>
              r == Returns(CountAbove(slice, key) - 1)
    ensures key !in slice && CountAbove(slice, key) == 0 ==> r == Panics
  {
    SearchCounts(slice, key);
    match BinarySearch(slice, key)
    case Ok(index) => Returns(|slice| - index)
    case Err(index) => if index + 1 > |slice| then Panics else Returns(|slice| - (index + 1))
  }

  /** `count_greater` as its documentation describes it: the number of
      elements strictly above `key`. */
  function CountGreater(slice: seq<U16>, key: U16): (r: nat)
    requires Ascending(slice)
    ensures r == CountAbove(slice, key)
    ensures r <= |slice|
  {
    SearchCounts(slice, key);
    match BinarySearch(slice, key)
    case Ok(index) => |slice| - index - 1
    case Err(index) => |slice| - index
  }

  /** The two corrected counts and the key itself account for every element. */
  lemma CountsPartition(slice: seq<U16>, key: U16)
    requires Ascending(slice)
    ensures CountLess(slice, key) + CountGreater(slice, key) + (if key in slice then 1 else 0) == |slice|
  {
    SearchCounts(slice, key);
  }

  /** `count_less([10], 5)` as written is 1, though nothing is below 5. */
  lemma CountLessMissingKeyOffByOne()
    ensures CountLessAsWritten([10], 5) == 1
    ensures CountLess([10], 5) == 0
  {
    assert 5 !in [10];
  }

  /** `count_greater` as written: `[10]` with key 10 gives 1 where nothing is
      greater, with key 5 gives 0 where one element is greater, and with key
      20 underflows. */
  lemma CountGreaterMisses()
    ensures CountGreaterAsWritten([10], 10) == Returns(1)
    ensures CountGreater([10], 10) == 0
    ensures CountGreaterAsWritten([10], 5) == Returns(0)
    ensures CountGreater([10], 5) == 1
    ensures CountGreaterAsWritten([10], 20) == Panics
  {
    assert 10 in [10];
    assert 5 !in [10];
    assert 20 !in [10];
  }

  /** `advance_until`: from position `index`, the first position whose element
      is at least `min`, found by doubling a probe distance and then bisecting
      between the last probe below `min` and the first probe not below it.
      An `index` past the end, or one already at an element not below `min`,
      comes back unchanged; running off the end gives `slice.len()`. */
  method AdvanceUntil(slice: seq<U16>, index: nat, min: U16) returns (r: nat)
    ensures index >= |slice| ==> r == index
    ensures index < |slice| ==> index <= r <= |slice|
    ensures index < |slice| && slice[index] >= min ==> r == index
    ensures Ascending(slice) && index < |slice| ==>
              (forall k :: index <= k < r ==> slice[k] < min) &&
              (r < |slice| ==> slice[r] >= min)
  {
    var lower := index;
    if lower >= |slice| || slice[lower] >= min {
      return lower;
    }

    var spanSize := 1;
    var bound := lower + spanSize;
    while bound < |slice| && slice[bound] < min
      invariant spanSize >= 1 && bound == lower + spanSize
      invariant lower + spanSize / 2 < |slice| && slice[lower + spanSize / 2] < min
      decreases |slice| - bound
    {
      spanSize := spanSize * 2;
      bound := lower + spanSize;
    }

    var upper := if bound < |slice| then bound else |slice| - 1;

    if slice[upper] == min {
      return upper;
    }

    if slice[upper] < min {
      return |slice|;
    }

    lower := lower + spanSize / 2;

    while lower + 1 != upper
      invariant index <= lower < upper < |slice|
      invariant slice[lower] < min < slice[upper]
      decreases upper - lower
    {
      var mid := (lower + upper) / 2;
      if slice[mid] == min {
        return mid;
      } else if slice[mid] < min {
        lower := mid;
      } else {
        upper := mid;
      }
    }

    return upper;
  }

  /** `exponential_search` as written. Past its guard the probe `bound`
      starts at 0 and is doubled, so it never moves: when the first element
      is below `key` the loop never exits, and otherwise only the first
      element is ever searched. */
  function ExponentialSearchAsWritten(slice: seq<U16>, size: nat, key: U16): (r: Exec<SearchResult>)
    ensures size == 0 || size > |slice| ==> r == Returns(Err(0))
    ensures 0 < size <= |slice| ==> (r == Diverges <==> slice[0] < key)
    ensures r.Returns? ==> r.value.index == 0
  {
    if size == 0 || size > |slice| then Returns(Err(0))
    else
      var bound := 0;
      if slice[bound] < key then Diverges
      else Returns(BinarySearch(slice[bound / 2 .. if bound + 1 < size then bound + 1 else size], key))
  }

  /** Exponential search as evidently intended: the probe starts at 1 and
      doubles while it stays below `size` and at an element below `key`; the
      window between the last two probes is then searched and its answer
      shifted back to a position in `slice`. On a sorted prefix the result is
      a match or the insertion point within `slice[..size]`. */
  function ExponentialSearch(slice: seq<U16>, size: nat, key: U16): (r: SearchResult)
    ensures size == 0 || size > |slice| ==> r == Err(0)
    ensures 0 < size <= |slice| && r.Ok? ==> r.index < size && slice[r.index] == key
    ensures 0 < size <= |slice| && r.Err? ==> r.index <= size
    ensures 0 < size <= |slice| && Sorted(slice[..size]) && r.Err? ==>
              (forall i :: 0 <= i < r.index ==> slice[..size][i] < key) &&
              (forall i :: r.index <= i < size ==> slice[..size][i] > key)
  {
    if size == 0 || size > |slice| then Err(0)
    else
      var bound := Gallop(slice, size, key, 1);
      var lo := bound / 2;
      var hi := if bound + 1 < size then bound + 1 else size;
      var found := BinarySearch(slice[lo..hi], key);
      ShiftedAnswer(slice, size, key, lo, hi);
      if found.Ok? then Ok(lo + found.index) else Err(lo + found.index)
  }

  /** The window's answer, shifted by the window's start `lo`, is a position
      of `slice[..size]` holding the key, or an insertion point for the whole
      sorted prefix, provided everything before the window is below the key
      and the window ends at `size` or at an element not below it. */
  lemma ShiftedAnswer(slice: seq<U16>, size: nat, key: U16, lo: nat, hi: nat)
    requires 0 < size <= |slice| && lo < hi <= size
    requires lo > 0 ==> slice[lo] < key
    requires hi < size ==> slice[hi - 1] >= key
    ensures var found := BinarySearch(slice[lo..hi], key);
            (found.Ok? ==> lo + found.index < size && slice[lo + found.index] == key) &&
            (found.Err? ==> lo + found.index <= size) &&
            (found.Err? && Sorted(slice[..size]) ==>
              (forall i :: 0 <= i < lo + found.index ==> slice[..size][i] < key) &&
              (forall i :: lo + found.index <= i < size ==> slice[..size][i] > key))
  {
    var found := BinarySearch(slice[lo..hi], key);
    if found.Ok? {
      assert slice[lo..hi][found.index] == slice[lo + found.index];
    } else {
      assert slice[..size][lo..hi] == slice[lo..hi];
      WindowInsertionPoint(slice[..size], lo, hi, key, found.index);
    }
  }

  /** Exponential search with the probe starting at 1 but the window's answer
      returned as it comes, the way the last line of `exponential_search` is
      written: it is the corrected answer less the window's start, so as soon
      as the probe has moved it names a position of the window rather than
      of `slice`. */
  function ExponentialSearchUnshifted(slice: seq<U16>, size: nat, key: U16): (r: SearchResult)
    ensures size == 0 || size > |slice| ==> r == Err(0)
    ensures 0 < size <= |slice| ==>
              r.Ok? == ExponentialSearch(slice, size, key).Ok? &&
              r.index + Gallop(slice, size, key, 1) / 2 == ExponentialSearch(slice, size, key).index
  {
    if size == 0 || size > |slice| then Err(0)
    else
      var bound := Gallop(slice, size, key, 1);
      BinarySearch(slice[bound / 2 .. if bound + 1 < size then bound + 1 else size], key)
  }

  /** The probing loop of the corrected exponential search, from probe
      `bound`: it stops at the first probe of `bound`, `2 * bound`, ... that
      reaches `size` or an element not below `key`, and the probe before it
      lies on an element below `key`. */
  function Gallop(slice: seq<U16>, size: nat, key: U16, bound: nat): (r: nat)
    requires 0 < size <= |slice|
    requires bound >= 1 && bound / 2 < size
    requires bound >= 2 ==> slice[bound / 2] < key
    ensures r >= 1 && r / 2 < size
    ensures r >= 2 ==> slice[r / 2] < key
    ensures r < size ==> slice[r] >= key
    decreases size - bound
  {
    if bound < size && slice[bound] < key then Gallop(slice, size, key, bound * 2)
    else bound
  }

  /** An insertion point found within the window `p[lo..hi]` is one for all
      of `p` when everything before the window is below `key` and the last
      window element is not, unless the window reaches the end of `p`. */
  lemma WindowInsertionPoint(p: seq<int>, lo: nat, hi: nat, key: int, j: nat)
    requires lo < hi <= |p|
    requires lo > 0 ==> p[lo] < key
    requires hi < |p| ==> p[hi - 1] >= key
    requires BinarySearch(p[lo..hi], key) == Err(j)
    ensures lo + j <= |p|
    ensures Sorted(p) ==>
              (forall i :: 0 <= i < lo + j ==> p[i] < key) &&
              (forall i :: lo + j <= i < |p| ==> p[i] > key)
  {
    var w := p[lo..hi];
    if Sorted(p) {
      assert Sorted(w) by {
        forall a, b | 0 <= a <= b < |w|
          ensures w[a] <= w[b]
        {
          assert w[a] == p[lo + a] && w[b] == p[lo + b];
        }
      }
      forall i | 0 <= i < lo + j
        ensures p[i] < key
      {
        if i < lo {
          assert p[i] <= p[lo];
        } else {
          assert w[i - lo] == p[i];
        }
      }
      forall i | lo + j <= i < |p|
        ensures p[i] > key
      {
        if i < hi {
          assert w[i - lo] == p[i];
        } else {
          assert w[hi - 1 - lo] == p[hi - 1];
          assert p[hi - 1] <= p[i];
        }
      }
    }
  }

  /** The first element of `[1, 2]` is below the key 2, so the search as
      written never returns. */
  lemma ExponentialSearchStalls()
    ensures ExponentialSearchAsWritten([1, 2], 2, 2) == Diverges
  {
  }

  /** With the probe fixed but the window's answer left unshifted, searching
      `[1, 2, 3, 4, 5]` for 4 probes 1, 2 and 4, searches the window
      `[3, 4, 5]`, and reports position 1, which holds 2; the corrected
      search reports position 3. */
  lemma ExponentialSearchUnshiftedMisplaces()
    ensures ExponentialSearchUnshifted([1, 2, 3, 4, 5], 5, 4) == Ok(1)
    ensures [1, 2, 3, 4, 5][1] != 4
    ensures ExponentialSearch([1, 2, 3, 4, 5], 5, 4) == Ok(3)
  {
    var s: seq<U16> := [1, 2, 3, 4, 5];
    assert Gallop(s, 5, 4, 4) == 4;
    assert Gallop(s, 5, 4, 1) == 4;
    assert s[2..5] == [3, 4, 5];
    assert HalvingSearch([3, 4, 5], 4, 1, 1) == Ok(1);
    assert HalvingSearch([3, 4, 5], 4, 1, 2) == Ok(1);
    assert BinarySearch([3, 4, 5], 4) == Ok(1);
  }
}

=== FILE: array_scalar.dfy ===
/** Scalar kernels over sorted `u16` slices
    (`src/container/array_ops/scalar.rs`): the union merge `or`, which writes
    into a caller-provided buffer and returns the number of values written,
    and `scalar_intersect`, which pushes onto a vector.

    The buffer behind `or`'s raw `out` pointer is modelled as the sequence of
    positions written so far, counted from `out`; a position the routine counts
    but never writes lies beyond the end of that sequence. */
module ArrayScalar {
  import opened Sequences
  import opened Oracle

  /** The buffer contents and the count `or` returns. */
  datatype Output = Output(buf: seq<int>, count: nat)

  /** Where the merge loop stops: the values written so far and how far each
      operand has been consumed. */
  datatype MergeState = MergeState(out: seq<int>, i: nat, j: nat)

  /** The merge loop of `or`: write the smaller head and advance past it, or
      write a shared head once and advance both; stop as soon as either
      operand is exhausted. Each step writes exactly one value. */
  function MergeLoop(a: seq<int>, b: seq<int>, i: nat, j: nat, out: seq<int>): (m: MergeState)
    requires i < |a| && j < |b|
    ensures i <= m.i <= |a| && j <= m.j <= |b|
    ensures m.i == |a| || m.j == |b|
    ensures |out| < |m.out|
    ensures m.out[..|out|] == out
    decreases |a| - i + |b| - j
  {
    if a[i] < b[j] then
      if i + 1 >= |a| then MergeState(out + [a[i]], i + 1, j)
      else MergeLoop(a, b, i + 1, j, out + [a[i]])
    else if b[j] < a[i] then
      if j + 1 >= |b| then MergeState(out + [b[j]], i, j + 1)
      else MergeLoop(a, b, i, j + 1, out + [b[j]])
    else
      if i + 1 >= |a| || j + 1 >= |b| then MergeState(out + [a[i]], i + 1, j + 1)
      else MergeLoop(a, b, i + 1, j + 1, out + [a[i]])
  }

  /** The loop invariant: the values written are the ascending union of the
      consumed prefixes, and all of them lie below both unconsumed heads. */
  predicate MergeInv(a: seq<int>, b: seq<int>, i: nat, j: nat, out: seq<int>) {
    && i <= |a| && j <= |b|
    && Ascending(out)
    && Elems(out) == Elems(a[..i]) + Elems(b[..j])
    && (forall x :: x in out ==> (i < |a| ==> x < a[i]) && (j < |b| ==> x < b[j]))
  }

  /** One step of the merge keeps the invariant. */
  lemma MergeStepKeepsInv(a: seq<int>, b: seq<int>, i: nat, j: nat, out: seq<int>, i': nat, j': nat, v: int)
    requires Ascending(a) && Ascending(b)
    requires i < |a| && j < |b| && MergeInv(a, b, i, j, out)
    requires (a[i] < b[j] && v == a[i] && i' == i + 1 && j' == j)
          || (b[j] < a[i] && v == b[j] && i' == i && j' == j + 1)
          || (a[i] == b[j] && v == a[i] && i' == i + 1 && j' == j + 1)
    ensures MergeInv(a, b, i', j', out + [v])
  {
    assert a[..i + 1] == a[..i] + [a[i]];
    assert b[..j + 1] == b[..j] + [b[j]];
    ElemsIn(out);
    AscendingCons(v, []);
    forall x | x in out + [v]
      ensures (i' < |a| ==> x < a[i']) && (j' < |b| ==> x < b[j'])
    {
      if x in out {
        assert x < a[i] && x < b[j];
      }
    }
    assert Ascending(out + [v]) by {
      forall p, q | 0 <= p < q < |out + [v]|
        ensures (out + [v])[p] < (out + [v])[q]
      {
        if q == |out| {
          assert out[p] in out;
        }
      }
    }
  }

  /** The whole merge loop keeps the invariant. */
  lemma {:induction false} MergeLoopKeepsInv(a: seq<int>, b: seq<int>, i: nat, j: nat, out: seq<int>)
    requires Ascending(a) && Ascending(b)
    requires i < |a| && j < |b| && MergeInv(a, b, i, j, out)
    ensures var m := MergeLoop(a, b, i, j, out); MergeInv(a, b, m.i, m.j, m.out)
    decreases |a| - i + |b| - j
  {
    if a[i] < b[j] {
      MergeStepKeepsInv(a, b, i, j, out, i + 1, j, a[i]);
      if i + 1 < |a| {
        MergeLoopKeepsInv(a, b, i + 1, j, out + [a[i]]);
      }
    } else if b[j] < a[i] {
      MergeStepKeepsInv(a, b, i, j, out, i, j + 1, b[j]);
      if j + 1 < |b| {
        MergeLoopKeepsInv(a, b, i, j + 1, out + [b[j]]);
      }
    } else {
      MergeStepKeepsInv(a, b, i, j, out, i + 1, j + 1, a[i]);
      if i + 1 < |a| && j + 1 < |b| {
        MergeLoopKeepsInv(a, b, i + 1, j + 1, out + [a[i]]);
      }
    }
  }

  /** `ptr::copy` of `src` to the start of the buffer: the first `|src|`
      positions are overwritten, later ones keep what they held. */
  function Overlay(buf: seq<int>, src: seq<int>): seq<int> {
    src + (if |src| < |buf| then buf[|src|..] else [])
  }

  /** `or` as written: after the merge loop the leftover tail is copied to
      `out` itself rather than to `out.add(count)`, overwriting the first
      values written, while the returned count still adds the tail's length.
      (Lines 52 and 84 do not compile as written; they are read as storing
      `*ptr_b` and as testing `ptr_b < ptr_b_end`.) An empty operand gives
      the other one and its length, as in the corrected routine. The count
      agrees with the corrected routine, and whenever the buffers differ
      some counted positions were never written. */
  function OrAsWritten(a: seq<U16>, b: seq<U16>): (r: Output)
    ensures |b| == 0 ==> r == Output(a, |a|)
    ensures |b| > 0 && |a| == 0 ==> r == Output(b, |b|)
    ensures r.count == ScalarOr(a, b).count
    ensures |r.buf| == r.count <==> r == ScalarOr(a, b)
    ensures r != ScalarOr(a, b) ==> |r.buf| < r.count
  {
    if |b| == 0 then Output(a, |a|)
    else if |a| == 0 then Output(b, |b|)
    else
      var m := MergeLoop(a, b, 0, 0, []);
      if m.i < |a| then Output(Overlay(m.out, a[m.i..]), |m.out| + (|a| - m.i))
      else if m.j < |b| then Output(Overlay(m.out, b[m.j..]), |m.out| + (|b| - m.j))
      else Output(m.out, |m.out|)
  }

  /** `or` with the leftover tail appended at `out.add(count)`. */
  function ScalarOr(a: seq<U16>, b: seq<U16>): (r: Output)
    ensures r.count == |r.buf|
    ensures |r.buf| <= |a| + |b|
  {
    if |b| == 0 then Output(a, |a|)
    else if |a| == 0 then Output(b, |b|)
    else
      var m := MergeLoop(a, b, 0, 0, []);
      MergeLength(a, b, 0, 0, []);
      if m.i < |a| then Output(m.out + a[m.i..], |m.out| + (|a| - m.i))
      else if m.j < |b| then Output(m.out + b[m.j..], |m.out| + (|b| - m.j))
      else Output(m.out, |m.out|)
  }

  lemma {:induction false} MergeLength(a: seq<int>, b: seq<int>, i: nat, j: nat, out: seq<int>)
    requires i < |a| && j < |b|
    ensures var m := MergeLoop(a, b, i, j, out); |m.out| - |out| <= (m.i - i) + (m.j - j)
    decreases |a| - i + |b| - j
  {
    if a[i] < b[j] {
      if i + 1 < |a| { MergeLength(a, b, i + 1, j, out + [a[i]]); }
    } else if b[j] < a[i] {
      if j + 1 < |b| { MergeLength(a, b, i, j + 1, out + [b[j]]); }
    } else {
      if i + 1 < |a| && j + 1 < |b| { MergeLength(a, b, i + 1, j + 1, out + [a[i]]); }
    }
  }

  /** On deduplicated sorted operands the corrected `or` writes exactly the
      reference union, and returns its length. */
  lemma ScalarOrComputesUnion(a: seq<U16>, b: seq<U16>)
    requires Ascending(a) && Ascending(b)
    ensures ScalarOr(a, b).buf == Union(a, b)
    ensures ScalarOr(a, b).count == |Union(a, b)|
  {
    var r := ScalarOr(a, b);
    if |b| == 0 || |a| == 0 {
      assert Elems(r.buf) == Elems(a) + Elems(b);
    } else {
      MergeFinish(a, b);
    }
    AscendingUnique(r.buf, Union(a, b));
  }

  /** After the merge loop, appending the leftover tail lists every value of
      both operands in ascending order. */
  lemma MergeFinish(a: seq<U16>, b: seq<U16>)
    requires Ascending(a) && Ascending(b) && |a| > 0 && |b| > 0
    ensures Ascending(ScalarOr(a, b).buf)
    ensures Elems(ScalarOr(a, b).buf) == Elems(a) + Elems(b)
  {
    MergeLoopKeepsInv(a, b, 0, 0, []);
    var m := MergeLoop(a, b, 0, 0, []);
    if m.i < |a| {
      TailAppend(m.out, a, m.i);
      SplitElems(a, m.i);
      assert b[..|b|] == b;
    } else if m.j < |b| {
      TailAppend(m.out, b, m.j);
      SplitElems(b, m.j);
      assert a[..|a|] == a;
    } else {
      assert a[..|a|] == a && b[..|b|] == b;
    }
  }

  lemma SplitElems(s: seq<int>, k: nat)
    requires k <= |s|
    ensures Elems(s) == Elems(s[..k]) + Elems(s[k..])
  {
    assert s == s[..k] + s[k..];
  }

  /** Appending the unconsumed tail of an ascending operand, all of whose
      values exceed everything written, keeps the output ascending. */
  lemma TailAppend(out: seq<int>, s: seq<int>, k: nat)
    requires Ascending(out) && Ascending(s) && k < |s|
    requires forall x :: x in out ==> x < s[k]
    ensures Ascending(out + s[k..])
    ensures Elems(out + s[k..]) == Elems(out) + Elems(s[k..])
  {
    var t := s[k..];
    forall p, q | 0 <= p < q < |out + t|
      ensures (out + t)[p] < (out + t)[q]
    {
      if p < |out| && q >= |out| {
        assert out[p] in out;
        assert t[q - |out|] == s[k + q - |out|];
      }
    }
  }

  /** The test cases of the source: two empty operands give nothing, and two
      identical operands give that operand. */
  lemma ScalarOrTestCases()
    ensures ScalarOr([], []) == Output([], 0)
    ensures ScalarOr([1, 2, 3, 4], [1, 2, 3, 4]) == Output([1, 2, 3, 4], 4)
  {
    var s: seq<U16> := [1, 2, 3, 4];
    ScalarOrComputesUnion(s, s);
    UnionIdempotent(s);
  }

  /** The interleaved test case of the source: `[1,3,5,7,8,9]` with
      `[0,2,4,6]` gives 0 through 9. */
  lemma ScalarOrInterleaved()
    ensures ScalarOr([1, 3, 5, 7, 8, 9], [0, 2, 4, 6]) == Output([0, 1, 2, 3, 4, 5, 6, 7, 8, 9], 10)
  {
    var a: seq<U16> := [1, 3, 5, 7, 8, 9];
    var b: seq<U16> := [0, 2, 4, 6];
    var m := MergeLoop(a, b, 0, 0, []);
    assert m == MergeState([0, 1, 2, 3, 4, 5, 6], 3, 4);
  }

  /** The source's own test case `[1,3,5,7,8,9]` with `[0,2,4,6]`: the loop
      writes 0 through 6, the tail 7, 8, 9 then lands on the first three
      positions, and positions 7 to 9 are counted but never written. */
  lemma OrAsWrittenFailsItsTest()
    ensures OrAsWritten([1, 3, 5, 7, 8, 9], [0, 2, 4, 6]) == Output([7, 8, 9, 3, 4, 5, 6], 10)
  {
    var a: seq<U16> := [1, 3, 5, 7, 8, 9];
    var b: seq<U16> := [0, 2, 4, 6];
    var m := MergeLoop(a, b, 0, 0, []);
    assert m == MergeState([0, 1, 2, 3, 4, 5, 6], 3, 4);
  }

  /** The loop of `scalar_intersect` as written. On a match it pushes the
      value and advances both indices but never reloads `v_a` and `v_b`, so
      they stay equal and every later round pushes the same value again until
      an index runs out. It also stops only when `i_a` goes strictly past the
      end. The state carries the indices and the two held values. */
  function StaleLoop(a: seq<int>, b: seq<int>, ia: nat, ib: nat, va: int, vb: int, out: seq<int>): (r: seq<int>)
    requires ia <= |a| && ib < |b|
    ensures |out| <= |r| && r[..|out|] == out
    decreases |a| - ia + |b| - ib
  {
    if va < vb then
      if ia + 1 >= |a| then out else StaleLoop(a, b, ia + 1, ib, a[ia + 1], vb, out)
    else if va > vb then
      if ib + 1 >= |b| then out else StaleLoop(a, b, ia, ib + 1, va, b[ib + 1], out)
    else
      if ia + 1 > |a| || ib + 1 >= |b| then out + [va]
      else StaleLoop(a, b, ia + 1, ib + 1, va, vb, out + [va])
  }

  /** Every entry of `r` from position `n` on equals the one at `n`. */
  predicate RepeatsFrom(r: seq<int>, n: nat) {
    forall k :: n <= k < |r| ==> r[k] == r[n]
  }

  /** Once the stale loop has pushed a value, it only ever pushes that value. */
  lemma {:induction false} StaleLoopRepeats(a: seq<int>, b: seq<int>, ia: nat, ib: nat, va: int, vb: int, out: seq<int>, n: nat)
    requires ia <= |a| && ib < |b| && n <= |out|
    requires |out| > n ==> va == vb && forall k :: n <= k < |out| ==> out[k] == va
    ensures RepeatsFrom(StaleLoop(a, b, ia, ib, va, vb, out), n)
    decreases |a| - ia + |b| - ib
  {
    if va < vb {
      if ia + 1 < |a| {
        StaleLoopRepeats(a, b, ia + 1, ib, a[ia + 1], vb, out, n);
      }
    } else if va > vb {
      if ib + 1 < |b| {
        StaleLoopRepeats(a, b, ia, ib + 1, va, b[ib + 1], out, n);
      }
    } else if !(ia + 1 > |a| || ib + 1 >= |b|) {
      assert StaleLoop(a, b, ia, ib, va, vb, out) == StaleLoop(a, b, ia + 1, ib + 1, va, vb, out + [va]);
      StaleLoopRepeats(a, b, ia + 1, ib + 1, va, vb, out + [va], n);
    } else {
      assert StaleLoop(a, b, ia, ib, va, vb, out) == out + [va];
    }
  }

  /** Up to its first match the stale loop is the reference merge: it pushes
      nothing when the unconsumed parts share no value, and otherwise its
      first push is the first value of their reference intersection. */
  lemma {:induction false} StaleLoopFirst(a: seq<int>, b: seq<int>, ia: nat, ib: nat, out: seq<int>)
    requires ia < |a| && ib < |b|
    ensures var r := StaleLoop(a, b, ia, ib, a[ia], b[ib], out);
            var c := Intersection(a[ia..], b[ib..]);
            (c == [] ==> r == out) && (c != [] ==> |r| > |out| && r[|out|] == c[0])
    decreases |a| - ia + |b| - ib
  {
    assert a[ia..][1..] == a[ia + 1..];
    assert b[ib..][1..] == b[ib + 1..];
    if a[ia] < b[ib] {
      if ia + 1 < |a| {
        StaleLoopFirst(a, b, ia + 1, ib, out);
      }
    } else if a[ia] > b[ib] {
      if ib + 1 < |b| {
        StaleLoopFirst(a, b, ia, ib + 1, out);
      }
    }
  }

  /** `scalar_intersect` as written: nothing is pushed when the operands share
      no value; otherwise the first push is the first common value (the least
      one, on sorted operands) and every later push is a copy of it. */
  function IntersectAsWritten(a: seq<U16>, b: seq<U16>, out: seq<int>): (r: seq<int>)
    ensures Intersection(a, b) == [] ==> r == out
    ensures Intersection(a, b) != [] ==> |r| > |out| && r[|out|] == Intersection(a, b)[0]
    ensures |out| <= |r| && r[..|out|] == out
    ensures RepeatsFrom(r, |out|)
  {
    if |a| == 0 || |b| == 0 then out
    else
      StaleLoopRepeats(a, b, 0, 0, a[0], b[0], out, |out|);
      StaleLoopFirst(a, b, 0, 0, out);
      assert a[0..] == a && b[0..] == b;
      StaleLoop(a, b, 0, 0, a[0], b[0], out)
  }

  /** The loop of `scalar_intersect` with the held values reloaded after a
      match and the exit test `i_a >= a.len()`: it appends the reference
      intersection of the unconsumed parts of both operands. */
  function IntersectFrom(a: seq<int>, b: seq<int>, ia: nat, ib: nat, out: seq<int>): (r: seq<int>)
    requires ia < |a| && ib < |b|
    ensures r == out + Intersection(a[ia..], b[ib..])
    decreases |a| - ia + |b| - ib
  {
    assert a[ia..][1..] == a[ia + 1..];
    assert b[ib..][1..] == b[ib + 1..];
    if a[ia] < b[ib] then
      if ia + 1 >= |a| then out else IntersectFrom(a, b, ia + 1, ib, out)
    else if a[ia] > b[ib] then
      if ib + 1 >= |b| then out else IntersectFrom(a, b, ia, ib + 1, out)
    else
      if ia + 1 >= |a| || ib + 1 >= |b| then out + [a[ia]]
      else IntersectFrom(a, b, ia + 1, ib + 1, out + [a[ia]])
  }

  /** `scalar_intersect` corrected: it appends exactly the reference
      intersection, so on sorted deduplicated operands the appended values are
      the common values in ascending order. */
  function Intersect(a: seq<U16>, b: seq<U16>, out: seq<int>): (r: seq<int>)
    ensures r == out + Intersection(a, b)
    ensures Ascending(a) && Ascending(b) ==>
              Ascending(r[|out|..]) && Elems(r[|out|..]) == Elems(a) * Elems(b)
  {
    var r := if |a| == 0 || |b| == 0 then out else IntersectFrom(a, b, 0, 0, out);
    assert a[0..] == a && b[0..] == b;
    assert r[|out|..] == Intersection(a, b);
    r
  }

  /** `[1, 2]` with `[1, 2]`: the stale loop pushes 1 twice and never 2. */
  lemma IntersectAsWrittenRepeats()
    ensures IntersectAsWritten([1, 2], [1, 2], []) == [1, 1]
    ensures Intersect([1, 2], [1, 2], []) == [1, 2]
  {
    var s: seq<U16> := [1, 2];
    IntersectionIdempotent(s);
  }
}

=== FILE: bitset.dfy ===
/** The bitset container of `src/container/bitset.rs`: a vector of 64-bit
    words, 1024 of them when full-sized, so that it spans every 16-bit
    value. */
module Bitset {
  import opened Words

  /** `BITSET_SIZE_IN_WORDS`: 2^16 bits in 64-bit words. */
  const BitsetSizeInWords: nat := 0x1_0000 / 64

  datatype BitsetContainer = BitsetContainer(bitset: seq<bv64>)

  /** A full-sized bitset spans exactly the 16-bit values: it can hold no
      value outside them, every 16-bit value has a bit in it, and so it holds
      at most 65536 values. */
  lemma FullSizeSpansU16(words: seq<bv64>, v: int)
    requires |words| == BitsetSizeInWords
    ensures BitsetSizeInWords == 1024
    ensures Contains(words, v) ==> 0 <= v < 0x1_0000
    ensures 0 <= v < 0x1_0000 ==> v / 64 < |words|
    ensures Cardinality(words) <= 0x1_0000
  {
    if 0 <= v {
      assert v / 64 < 1024 <==> v < 0x1_0000;
    }
  }

  /** `new`: the words are only reserved, so the bitset has no words and
      holds no value. */
  function New(): (c: BitsetContainer)
    ensures |c.bitset| == 0
    ensures forall v :: !Contains(c.bitset, v)
    ensures Cardinality(c.bitset) == 0
  {
    BitsetContainer([])
  }

  /** `clear`: every word becomes zero and the word count is kept, so no value
      is left and the cardinality is 0. */
  method Clear(c: BitsetContainer) returns (r: BitsetContainer)
    ensures |r.bitset| == |c.bitset|
    ensures forall v :: !Contains(r.bitset, v)
    ensures Cardinality(r.bitset) == 0
  {
    var words := c.bitset;
    var i := 0;
    while i < |words|
      invariant i <= |words| == |c.bitset|
      invariant forall k :: 0 <= k < i ==> words[k] == 0
    {
      words := words[i := 0];
      i := i + 1;
    }
    forall v | Contains(words, v) ensures false {
      ConstantBits(v % 64);
    }
    ZeroCardinality(words);
    return BitsetContainer(words);
  }

  /** `set_all`: every word becomes `u64::MAX` and the word count is kept, so
      every value the words span is present and the cardinality is 64 per
      word. */
  method SetAll(c: BitsetContainer) returns (r: BitsetContainer)
    ensures |r.bitset| == |c.bitset|
    ensures forall v :: 0 <= v < 64 * |c.bitset| ==> Contains(r.bitset, v)
    ensures Cardinality(r.bitset) == 64 * |c.bitset|
  {
    var words := c.bitset;
    var i := 0;
    while i < |words|
      invariant i <= |words| == |c.bitset|
      invariant forall k :: 0 <= k < i ==> words[k] == AllOnes
    {
      words := words[i := AllOnes];
      i := i + 1;
    }
    forall v | 0 <= v < 64 * |words| ensures Contains(words, v) {
      ConstantBits(v % 64);
    }
    FullCardinality(words);
    return BitsetContainer(words);
  }

  lemma {:induction false} ZeroCardinality(words: seq<bv64>)
    requires forall k :: 0 <= k < |words| ==> words[k] == 0
    ensures Cardinality(words) == 0
  {
    if |words| > 0 {
      CountBitsConstants(64);
      ZeroCardinality(words[1..]);
    }
  }

  lemma {:induction false} FullCardinality(words: seq<bv64>)
    requires forall k :: 0 <= k < |words| ==> words[k] == AllOnes
    ensures Cardinality(words) == 64 * |words|
  {
    if |words| > 0 {
      CountBitsConstants(64);
      FullCardinality(words[1..]);
    }
  }
}

=== FILE: bitset_append.dfy ===
/** The append-based kernels of `src/container/bitset_ops.rs`: operands of
    any lengths, results pushed onto the end of a vector, and the dispatchers
    that pick the scalar kernels in a build without SIMD target features.
    The result of each kernel is read as the words pushed after the vector's
    prior contents. */
module BitsetAppend {
  import opened Oracle
  import opened Words
  import opened BitsetSlices

  function Max(x: nat, y: nat): nat {
    if x >= y then x else y
  }

  /** The words of `s` from position `n` on, empty when `n` is past the end:
      what `extend_from_slice(&s[i..s.len()])` appends when guarded by
      `i < s.len()`. */
  function Tail(s: seq<bv64>, n: nat): seq<bv64> {
    if n < |s| then s[n..] else []
  }

  /** The word expressions the kernels push: the word operation of a set
      operation, or the `(a & b) & !b` that `scalar_difference` pushes. */
  datatype WordExpr = SetOp(op: OpType) | MaskedDifference

  function Eval(e: WordExpr, x: bv64, y: bv64): bv64 {
    match e
    case SetOp(op) => Apply(op, x, y)
    case MaskedDifference => (x & y) & !y
  }

  /** The lock-step loop shared by the four kernels: while both indices are
      in range, push `e` of `a[i]` and `b[i]` and advance both. */
  function PushFrom(e: WordExpr, a: seq<bv64>, b: seq<bv64>, i: nat, out: seq<bv64>): (r: seq<bv64>)
    requires i <= Min(|a|, |b|)
    ensures |r| == |out| + (Min(|a|, |b|) - i)
    ensures r[..|out|] == out
    ensures forall k :: i <= k < Min(|a|, |b|) ==> r[|out| + k - i] == Eval(e, a[k], b[k])
    decreases Min(|a|, |b|) - i
  {
    if i < |a| && i < |b| then PushFrom(e, a, b, i + 1, out + [Eval(e, a[i], b[i])])
    else out
  }

  /** The loop with a set operation's word operation pushes the combined
      words of the common prefix. */
  lemma PushCombines(op: OpType, a: seq<bv64>, b: seq<bv64>, out: seq<bv64>)
    ensures PushFrom(SetOp(op), a, b, 0, out) == out + Combine(op, a, b, Min(|a|, |b|))
  {
  }

  /** The longer operand's tail read through `op` against missing words is the
      tail itself: `x | 0`, `x ^ 0`, `x & !0`, `0 | y` and `0 ^ y` are `x` and
      `y`. */
  lemma TailCombines(op: OpType, a: seq<bv64>, b: seq<bv64>)
    requires op != And
    ensures var m := Min(|a|, |b|);
            Combine(op, a, b, m) + Tail(a, m) + (if op == AndNot then [] else Tail(b, m))
            == Combine(op, a, b, if op == AndNot then |a| else Max(|a|, |b|))
  {
    var m := Min(|a|, |b|);
    var n := if op == AndNot then |a| else Max(|a|, |b|);
    var lhs := Combine(op, a, b, m) + Tail(a, m) + (if op == AndNot then [] else Tail(b, m));
    var rhs := Combine(op, a, b, n);
    assert |lhs| == |rhs|;
    forall k | 0 <= k < n
      ensures lhs[k] == rhs[k]
    {
      if k >= m {
        if k < |a| {
          assert Word(b, k) == 0;
          ZeroIsIdentity(op, a[k]);
          assert lhs[k] == a[k];
        } else {
          assert Word(a, k) == 0;
          ZeroIsIdentity(op, b[k]);
          assert lhs[k] == b[k];
        }
      }
    }
  }

  /** A missing word leaves the other operand's word as it is, except under
      `and` and on the left of `and_not`. */
  lemma ZeroIsIdentity(op: OpType, x: bv64)
    requires op != And
    ensures Apply(op, x, 0) == x
    ensures op != AndNot ==> Apply(op, 0, x) == x
  {
  }

  /** `scalar_union` as written: the early exits for an empty operand do not
      return, so the loop's tail copy appends that other operand a second
      time. */
  function ScalarUnionAsWritten(a: seq<bv64>, b: seq<bv64>, out: seq<bv64>): (r: seq<bv64>)
    ensures |a| == 0 ==> r == out + b + b
    ensures |b| == 0 ==> r == out + a + a
    ensures |a| > 0 && |b| > 0 ==> r == ScalarUnion(a, b, out)
  {
    var o1 := if |a| == 0 then out + b else out;
    var o2 := if |b| == 0 then o1 + a else o1;
    var m := Min(|a|, |b|);
    assert a[0..] == a && b[0..] == b;
    PushFrom(SetOp(Or), a, b, 0, o2) + Tail(a, m) + Tail(b, m)
  }

  /** `scalar_union` with the early exits returning: the words pushed are the
      word-by-word OR over the longer operand's length, so they hold every
      value of either operand. */
  function ScalarUnion(a: seq<bv64>, b: seq<bv64>, out: seq<bv64>): (r: seq<bv64>)
    ensures r == out + Combine(Or, a, b, Max(|a|, |b|))
    ensures forall v :: Contains(r[|out|..], v) <==> Contains(a, v) || Contains(b, v)
  {
    LoopWithTails(Or, a, b, out);
    var r := if |a| == 0 then out + b
      else if |b| == 0 then out + a
      else PushFrom(SetOp(Or), a, b, 0, out) + Tail(a, Min(|a|, |b|)) + Tail(b, Min(|a|, |b|));
    PushedContains(Or, a, b, Max(|a|, |b|), out, r);
    r
  }

  /** The lock-step loop followed by both tail copies pushes the word-by-word
      result over the longer operand's length, empty operands included. */
  lemma LoopWithTails(op: OpType, a: seq<bv64>, b: seq<bv64>, out: seq<bv64>)
    requires op == Or || op == Xor
    ensures var m := Min(|a|, |b|);
            PushFrom(SetOp(op), a, b, 0, out) + Tail(a, m) + Tail(b, m) == out + Combine(op, a, b, Max(|a|, |b|))
    ensures |a| == 0 ==> out + b == out + Combine(op, a, b, Max(|a|, |b|))
    ensures |b| == 0 ==> out + a == out + Combine(op, a, b, Max(|a|, |b|))
  {
    var m := Min(|a|, |b|);
    var c := Combine(op, a, b, Max(|a|, |b|));
    LoopThenTails(op, a, b, out);
    if |a| == 0 {
      assert PushFrom(SetOp(op), a, b, 0, out) == out;
      assert Tail(a, m) == [] && Tail(b, m) + [] == b;
    } else if |b| == 0 {
      assert PushFrom(SetOp(op), a, b, 0, out) == out;
      assert Tail(a, m) == a && Tail(b, m) == [];
    }
  }

  lemma LoopThenTails(op: OpType, a: seq<bv64>, b: seq<bv64>, out: seq<bv64>)
    requires op == Or || op == Xor
    ensures var m := Min(|a|, |b|);
            PushFrom(SetOp(op), a, b, 0, out) + Tail(a, m) + Tail(b, m) == out + Combine(op, a, b, Max(|a|, |b|))
  {
    var m := Min(|a|, |b|);
    PushCombines(op, a, b, out);
    TailCombines(op, a, b);
    var c := Combine(op, a, b, m);
    var whole := Combine(op, a, b, Max(|a|, |b|));
    assert c + Tail(a, m) + Tail(b, m) == whole;
    AppendRegroups(out, c, Tail(a, m), Tail(b, m));
  }

  lemma AppendRegroups3(s: seq<bv64>, t: seq<bv64>, u: seq<bv64>)
    ensures s + t + u == s + (t + u)
  {
  }

  lemma AppendRegroups(s: seq<bv64>, t: seq<bv64>, u: seq<bv64>, w: seq<bv64>)
    ensures s + t + u + w == s + (t + u + w)
  {
  }

  /** Words pushed as a combined result hold exactly the values the truth
      table of `op` admits, provided no word left out could hold any. */
  lemma PushedContains(op: OpType, a: seq<bv64>, b: seq<bv64>, n: nat, out: seq<bv64>, r: seq<bv64>)
    requires r == out + Combine(op, a, b, n)
    requires forall k :: n <= k < |a| || n <= k < |b| ==> Apply(op, Word(a, k), Word(b, k)) == 0
    ensures forall v :: Contains(r[|out|..], v) <==> OpHolds(op, Contains(a, v), Contains(b, v))
  {
    assert r[|out|..] == Combine(op, a, b, n);
    forall v ensures Contains(r[|out|..], v) <==> OpHolds(op, Contains(a, v), Contains(b, v)) {
      CombineContains(op, a, b, n, v);
    }
  }

  /** `scalar_intersect`: nothing when either operand is empty, otherwise the
      AND of the common prefix, which holds exactly the values of both. */
  function ScalarIntersect(a: seq<bv64>, b: seq<bv64>, out: seq<bv64>): (r: seq<bv64>)
    ensures |a| == 0 || |b| == 0 ==> r == out
    ensures r == out + Combine(And, a, b, Min(|a|, |b|))
    ensures forall v :: Contains(r[|out|..], v) <==> Contains(a, v) && Contains(b, v)
  {
    PushCombines(And, a, b, out);
    var r := if |a| == 0 || |b| == 0 then out else PushFrom(SetOp(And), a, b, 0, out);
    forall k | Min(|a|, |b|) <= k < |a| || Min(|a|, |b|) <= k < |b|
      ensures Apply(And, Word(a, k), Word(b, k)) == 0
    {
      AndWithZero(Word(a, k), Word(b, k));
    }
    PushedContains(And, a, b, Min(|a|, |b|), out, r);
    r
  }

  lemma AndWithZero(x: bv64, y: bv64)
    requires x == 0 || y == 0
    ensures Apply(And, x, y) == 0
  {
  }

  /** `scalar_difference` as written: the lock-step loop pushes
      `(a & b) & !b`, which is zero whatever the words, so every value of the
      common prefix is dropped. Everywhere else it agrees with the corrected
      kernel: empty operands, and `a`'s tail beyond `b`. */
  function ScalarDifferenceAsWritten(a: seq<bv64>, b: seq<bv64>, out: seq<bv64>): (r: seq<bv64>)
    ensures |r| == |ScalarDifference(a, b, out)|
    ensures r[..|out|] == out
    ensures forall k :: |out| <= k < |out| + Min(|a|, |b|) ==> r[k] == 0
    ensures r[|out| + Min(|a|, |b|)..] == ScalarDifference(a, b, out)[|out| + Min(|a|, |b|)..]
  {
    var m := Min(|a|, |b|);
    var r := if |a| == 0 then out
      else if |b| == 0 then out + a
      else PushFrom(MaskedDifference, a, b, 0, out) + Tail(a, m);
    assert r[|out| + m..] == ScalarDifference(a, b, out)[|out| + m..] by {
      var d := ScalarDifference(a, b, out);
      if |a| > 0 && |b| > 0 {
        SliceAfter(PushFrom(MaskedDifference, a, b, 0, out), Tail(a, m));
        SliceAfter(PushFrom(SetOp(AndNot), a, b, 0, out), Tail(a, m));
        LoopThenTail(a, b, out);
      }
    }
    assert forall k :: |out| <= k < |out| + m ==> r[k] == 0 by {
      if m > 0 { MaskedPrefixZero(a, b, out); }
    }
    r
  }

  /** Every word the as-written loop pushes is zero. */
  lemma MaskedPrefixZero(a: seq<bv64>, b: seq<bv64>, out: seq<bv64>)
    ensures var m := Min(|a|, |b|);
            forall k :: |out| <= k < |out| + m ==> (PushFrom(MaskedDifference, a, b, 0, out) + Tail(a, m))[k] == 0
  {
    var m := Min(|a|, |b|);
    var p := PushFrom(MaskedDifference, a, b, 0, out);
    forall k | |out| <= k < |out| + m
      ensures (p + Tail(a, m))[k] == 0
    {
      var j := k - |out|;
      assert p[|out| + j - 0] == Eval(MaskedDifference, a[j], b[j]);
      MaskedIsZero(a[j], b[j]);
    }
  }

  lemma SliceAfter(p: seq<bv64>, t: seq<bv64>)
    ensures (p + t)[|p|..] == t
  {
  }

  lemma MaskedIsZero(x: bv64, y: bv64)
    ensures (x & y) & !y == 0
  {
  }

  /** `scalar_difference` pushing `a & !b`: the words pushed are `a`'s words
      with `b`'s values cleared, so they hold exactly the values of `a`
      absent from `b`. */
  function ScalarDifference(a: seq<bv64>, b: seq<bv64>, out: seq<bv64>): (r: seq<bv64>)
    ensures |a| == 0 ==> r == out
    ensures |b| == 0 ==> r == out + a
    ensures r == out + Combine(AndNot, a, b, |a|)
    ensures forall v :: Contains(r[|out|..], v) <==> Contains(a, v) && !Contains(b, v)
  {
    var m := Min(|a|, |b|);
    LoopThenTail(a, b, out);
    var r := if |a| == 0 then out
      else if |b| == 0 then out + a
      else PushFrom(SetOp(AndNot), a, b, 0, out) + Tail(a, m);
    forall k | |a| <= k < |a| || |a| <= k < |b|
      ensures Apply(AndNot, Word(a, k), Word(b, k)) == 0
    {
      AndNotFromZero(Word(b, k));
    }
    PushedContains(AndNot, a, b, |a|, out, r);
    r
  }

  /** The lock-step loop followed by the copy of `a`'s tail pushes `a & !b`
      over `a`'s length, empty operands included. */
  lemma LoopThenTail(a: seq<bv64>, b: seq<bv64>, out: seq<bv64>)
    ensures var m := Min(|a|, |b|);
            PushFrom(SetOp(AndNot), a, b, 0, out) + Tail(a, m) == out + Combine(AndNot, a, b, |a|)
    ensures |a| == 0 ==> out == out + Combine(AndNot, a, b, |a|)
    ensures |b| == 0 ==> out + a == out + Combine(AndNot, a, b, |a|)
  {
    var m := Min(|a|, |b|);
    PushCombines(AndNot, a, b, out);
    TailCombines(AndNot, a, b);
    AppendRegroups3(out, Combine(AndNot, a, b, m), Tail(a, m));
    if |b| == 0 {
      assert Combine(AndNot, a, b, m) == [] && Tail(a, m) == a;
    }
  }

  lemma AndNotFromZero(y: bv64)
    ensures Apply(AndNot, 0, y) == 0
  {
  }

  /** `scalar_symmetric_difference`: the XOR of the common prefix, then
      whichever tail is left, so the words pushed hold exactly the values of
      one operand but not both. */
  function ScalarSymmetricDifference(a: seq<bv64>, b: seq<bv64>, out: seq<bv64>): (r: seq<bv64>)
    ensures r == out + Combine(Xor, a, b, Max(|a|, |b|))
    ensures forall v :: Contains(r[|out|..], v) <==> Contains(a, v) != Contains(b, v)
  {
    var m := Min(|a|, |b|);
    LoopThenTails(Xor, a, b, out);
    var r := PushFrom(SetOp(Xor), a, b, 0, out) + Tail(a, m) + Tail(b, m);
    PushedContains(Xor, a, b, Max(|a|, |b|), out, r);
    r
  }

  /** An empty `a` with `b = [1]`: the as-written union pushes the word twice,
      so value 64 appears in the result though neither operand holds it. */
  lemma UnionAsWrittenDuplicates()
    ensures ScalarUnionAsWritten([], [1], []) == [1, 1]
    ensures Contains(ScalarUnionAsWritten([], [1], []), 64)
    ensures !Contains([], 64) && !Contains([1], 64)
    ensures ScalarUnion([], [1], []) == [1]
  {
    UnionAsWrittenPushesTwice();
    UnionKeepsWord();
    SecondWordHolds64();
    NoneHolds64();
  }

  lemma SecondWordHolds64()
    ensures Contains([1, 1], 64)
  {
    var r: seq<bv64> := [1, 1];
    assert 64 / 64 == 1 && 64 % 64 == 0;
    assert BitAt(r[1], 0);
  }

  lemma NoneHolds64()
    ensures !Contains([], 64) && !Contains([1], 64)
  {
  }

  lemma UnionAsWrittenPushesTwice()
    ensures ScalarUnionAsWritten([], [1], []) == [1, 1]
  {
    var e: seq<bv64> := [];
    var b: seq<bv64> := [1];
    assert e + b + b == [1, 1];
  }

  lemma UnionKeepsWord()
    ensures ScalarUnion([], [1], []) == [1]
  {
    var c := Combine(Or, [], [1], 1);
    assert c[0] == 0 | 1 == 1;
  }

  /** `a = [1]` (value 0) and `b = [0]` (empty): the as-written difference
      pushes 0 and loses value 0. */
  lemma DifferenceAsWrittenLosesValues()
    ensures ScalarDifferenceAsWritten([1], [0], []) == [0]
    ensures ScalarDifference([1], [0], []) == [1]
    ensures Contains([1], 0) && !Contains([0], 0)
  {
    DifferenceAsWrittenPushesZero();
    DifferenceKeepsWord();
    OneHoldsZero();
  }

  lemma DifferenceAsWrittenPushesZero()
    ensures ScalarDifferenceAsWritten([1], [0], []) == [0]
  {
    var r := ScalarDifferenceAsWritten([1], [0], []);
    assert |r| == 1 && r[0] == 0;
  }

  lemma DifferenceKeepsWord()
    ensures ScalarDifference([1], [0], []) == [1]
  {
    var c := Combine(AndNot, [1], [0], 1);
    assert c[0] == 1 & !0 == 1;
  }

  lemma OneHoldsZero()
    ensures Contains([1], 0) && !Contains([0], 0)
  {
    assert BitAt(1, 0);
    ConstantBits(0);
  }

  /** The two builds: with AVX2 or SSE4.2 the dispatchers call SIMD kernels
      whose bodies are empty; otherwise they call the scalar kernels. */
  datatype Build = Scalar | Simd

  /** `union`, `intersect`, `difference` and `symmetric_difference`: prior
      contents of `out` are kept and a SIMD build pushes nothing. A scalar
      build runs the kernels as written: intersection and symmetric
      difference push words holding exactly the values the truth table of
      `op` admits; union does so for two nonempty operands but pushes a lone
      nonempty operand twice; difference keeps only the values of `a` that
      lie beyond `b`'s words. */
  function Dispatch(build: Build, op: OpType, a: seq<bv64>, b: seq<bv64>, out: seq<bv64>): (r: seq<bv64>)
    ensures |out| <= |r| && r[..|out|] == out
    ensures build == Scalar && (op == And || op == Xor) ==>
              forall v :: Contains(r[|out|..], v) <==> OpHolds(op, Contains(a, v), Contains(b, v))
    ensures build == Scalar && op == Or && |a| > 0 && |b| > 0 ==>
              forall v :: Contains(r[|out|..], v) <==> Contains(a, v) || Contains(b, v)
    ensures build == Scalar && op == Or && |a| == 0 ==> r == out + b + b
    ensures build == Scalar && op == Or && |b| == 0 ==> r == out + a + a
    ensures build == Scalar && op == AndNot ==>
              forall v :: Contains(r[|out|..], v) <==> Contains(a, v) && v >= 64 * |b|
    ensures build == Simd ==> r == out
  {
    match build
    case Simd => out
    case Scalar =>
      match op
      case Or =>
        var r := ScalarUnionAsWritten(a, b, out);
        assert r[..|out|] == out by {
          if |a| == 0 {
            PrefixKept(out, b + b);
          } else if |b| == 0 {
            PrefixKept(out, a + a);
          } else {
            PrefixKept(out, Combine(Or, a, b, Max(|a|, |b|)));
          }
        }
        r
      case And =>
        PrefixKept(out, Combine(And, a, b, Min(|a|, |b|)));
        ScalarIntersect(a, b, out)
      case AndNot =>
        DifferenceAsWrittenHolds(a, b, out);
        ScalarDifferenceAsWritten(a, b, out)
      case Xor =>
        PrefixKept(out, Combine(Xor, a, b, Max(|a|, |b|)));
        ScalarSymmetricDifference(a, b, out)
  }

  lemma PrefixKept(out: seq<bv64>, t: seq<bv64>)
    ensures (out + t)[..|out|] == out && out + t + t == out + (t + t)
  {
  }

  /** The as-written difference pushes, for each word of `a`, zero where `b`
      has a word and `a`'s own word past the end of `b`. */
  lemma DifferenceAsWrittenWords(a: seq<bv64>, b: seq<bv64>, out: seq<bv64>)
    ensures var r := ScalarDifferenceAsWritten(a, b, out);
            |r| == |out| + |a| &&
            forall k :: 0 <= k < |a| ==> r[|out| + k] == (if k < |b| then 0 else a[k])
  {
    var r := ScalarDifferenceAsWritten(a, b, out);
    var d := ScalarDifference(a, b, out);
    var m := Min(|a|, |b|);
    forall k | 0 <= k < |a|
      ensures r[|out| + k] == (if k < |b| then 0 else a[k])
    {
      if k >= m {
        assert r[|out| + k] == r[|out| + m..][k - m];
        assert d[|out| + k] == Apply(AndNot, a[k], Word(b, k));
        AndNotWithZero(a[k]);
      }
    }
  }

  lemma AndNotWithZero(x: bv64)
    ensures Apply(AndNot, x, 0) == x
  {
  }

  /** The values the as-written difference keeps: those of `a` in words
      beyond `b`'s last word. */
  lemma DifferenceAsWrittenHolds(a: seq<bv64>, b: seq<bv64>, out: seq<bv64>)
    ensures forall v :: Contains(ScalarDifferenceAsWritten(a, b, out)[|out|..], v) <==> Contains(a, v) && v >= 64 * |b|
  {
    var r := ScalarDifferenceAsWritten(a, b, out);
    DifferenceAsWrittenWords(a, b, out);
    forall v ensures Contains(r[|out|..], v) <==> Contains(a, v) && v >= 64 * |b| {
      if 0 <= v && v / 64 < |a| {
        assert r[|out|..][v / 64] == r[|out| + v / 64];
        ConstantBits(v % 64);
      }
    }
  }
}

=== FILE: bitset_slices.dfy ===
/** The slice kernels of `src/container/bitset_ops/mod.rs` and the raw-pointer
    kernels of `src/container/bitset_ops/scalar.rs`: word-by-word `or`, `and`,
    `and_not` and `xor` written into an output slice, and the popcount
    cardinalities. */
module BitsetSlices {
  import opened Wrappers
  import opened Oracle
  import opened Words

  function Min(x: nat, y: nat): nat {
    if x <= y then x else y
  }

  /** The loop of the slice kernels: for every position both operands have,
      the output word there becomes `a[i] op b[i]`. Indexing past the end of
      `out` panics. On success the other output words are untouched, and the
      covered values are exactly those the truth table of `op` admits. */
  method WordLoop(op: OpType, a: seq<bv64>, b: seq<bv64>, out: seq<bv64>) returns (r: Exec<seq<bv64>>)
    ensures !r.Diverges?
    ensures r.Panics? <==> |out| < Min(|a|, |b|)
    ensures r.Returns? ==> |r.value| == |out|
    ensures r.Returns? ==> r.value[..Min(|a|, |b|)] == Combine(op, a, b, Min(|a|, |b|))
    ensures r.Returns? ==> r.value[Min(|a|, |b|)..] == out[Min(|a|, |b|)..]
    ensures r.Returns? ==> forall v :: 0 <= v < 64 * Min(|a|, |b|) ==>
              (Contains(r.value, v) <==> OpHolds(op, Contains(a, v), Contains(b, v)))
  {
    var n := Min(|a|, |b|);
    var w := out;
    var i := 0;
    while i < n
      invariant i <= n && i <= |out| && |w| == |out|
      invariant forall k :: 0 <= k < i ==> w[k] == Apply(op, a[k], b[k])
      invariant forall k :: i <= k < |w| ==> w[k] == out[k]
    {
      if i >= |w| {
        return Panics;
      }
      w := w[i := Apply(op, a[i], b[i])];
      i := i + 1;
    }
    LoopedWords(op, a, b, out, w, n);
    return Returns(w);
  }

  /** Once the first `n` words are the word-by-word result and the rest are
      `out`'s, the prefix is the combined words, and the values it covers are
      exactly those the truth table of `op` admits. */
  lemma LoopedWords(op: OpType, a: seq<bv64>, b: seq<bv64>, out: seq<bv64>, w: seq<bv64>, n: nat)
    requires n == Min(|a|, |b|) && n <= |out| && |w| == |out|
    requires forall k :: 0 <= k < n ==> w[k] == Apply(op, a[k], b[k])
    requires forall k :: n <= k < |w| ==> w[k] == out[k]
    ensures w[..n] == Combine(op, a, b, n)
    ensures w[n..] == out[n..]
    ensures forall v :: 0 <= v < 64 * n ==>
              (Contains(w, v) <==> OpHolds(op, Contains(a, v), Contains(b, v)))
  {
    forall v | 0 <= v < 64 * n
      ensures Contains(w, v) <==> OpHolds(op, Contains(a, v), Contains(b, v))
    {
      ApplyBit(op, a[v / 64], b[v / 64], v % 64);
    }
  }

  /** The loop of the raw-pointer kernels: `a` and `b` have the same length
      (the `debug_assert!`) and `out` has room for that many words (the
      caller's obligation behind the raw pointer). Position `i` from the
      starting index on becomes `a[i] op b[i]`; nothing at or beyond
      `out[|a|]` is written. */
  function PointerLoop(op: OpType, a: seq<bv64>, b: seq<bv64>, out: seq<bv64>, i: nat): (r: seq<bv64>)
    requires |a| == |b| && |a| <= |out| && i <= |a|
    ensures |r| == |out|
    ensures forall k :: i <= k < |a| ==> r[k] == Apply(op, a[k], b[k])
    ensures r[..i] == out[..i] && r[|a|..] == out[|a|..]
    decreases |a| - i
  {
    if i == |a| then out
    else PointerLoop(op, a, b, out[i := Apply(op, a[i], b[i])], i + 1)
  }

  /** The raw-pointer kernels: the first `|a|` output words become the
      word-by-word result, so the values they cover are exactly those the
      truth table of `op` admits; the rest of `out` is untouched. */
  function PointerOp(op: OpType, a: seq<bv64>, b: seq<bv64>, out: seq<bv64>): (r: seq<bv64>)
    requires |a| == |b| && |a| <= |out|
    ensures r == Combine(op, a, b, |a|) + out[|a|..]
    ensures forall v :: Contains(r[..|a|], v) <==> OpHolds(op, Contains(a, v), Contains(b, v))
  {
    var r := PointerLoop(op, a, b, out, 0);
    assert r[..|a|] == Combine(op, a, b, |a|);
    assert r == r[..|a|] + r[|a|..];
    forall v ensures Contains(r[..|a|], v) <==> OpHolds(op, Contains(a, v), Contains(b, v)) {
      CombineContains(op, a, b, |a|, v);
    }
    r
  }

  /** `cardinality`: the loop adding up the popcount of every word. The
      result is the number of values the bitset holds, at most 64 per word. */
  method CardinalityLoop(words: seq<bv64>) returns (count: nat)
    ensures count == Cardinality(words)
    ensures count <= 64 * |words|
  {
    count := 0;
    var i := 0;
    while i < |words|
      invariant i <= |words|
      invariant count == Cardinality(words[..i])
    {
      PrefixStep(words, i);
      count := count + Popcount(words[i]);
      i := i + 1;
    }
    assert words[..i] == words;
  }

  /** `and_cardinality`: the popcounts of `a[i] & b[i]` over the positions
      both operands have, which is the cardinality of the word-by-word AND. */
  method AndCardinality(a: seq<bv64>, b: seq<bv64>) returns (count: nat)
    ensures count == Cardinality(Combine(And, a, b, Min(|a|, |b|)))
  {
    count := 0;
    var i := 0;
    while i < |a| && i < |b|
      invariant i <= |a| && i <= |b|
      invariant count == Cardinality(Combine(And, a, b, i))
    {
      CombineStep(And, a, b, i);
      count := count + Popcount(a[i] & b[i]);
      i := i + 1;
    }
  }

  /** Extending the combined words by one position appends one word. */
  lemma CombineSnoc(op: OpType, a: seq<bv64>, b: seq<bv64>, n: nat)
    ensures Combine(op, a, b, n + 1) == Combine(op, a, b, n) + [Apply(op, Word(a, n), Word(b, n))]
  {
  }

  /** Inclusion–exclusion for bitsets of equal length:
      |A ∪ B| + |A ∩ B| = |A| + |B|. */
  lemma {:induction false} CardinalityInclusionExclusion(a: seq<bv64>, b: seq<bv64>, n: nat)
    requires n <= |a| && n <= |b|
    ensures Cardinality(Combine(Or, a, b, n)) + Cardinality(Combine(And, a, b, n))
            == Cardinality(a[..n]) + Cardinality(b[..n])
  {
    if n > 0 {
      var m := n - 1;
      CardinalityInclusionExclusion(a, b, m);
      CombineStep(Or, a, b, m);
      CombineStep(And, a, b, m);
      PrefixStep(a, m);
      PrefixStep(b, m);
      CountBitsInclusionExclusion(a[m], b[m], 64);
    }
  }

  /** One more position adds the popcount of one more combined word. */
  lemma CombineStep(op: OpType, a: seq<bv64>, b: seq<bv64>, m: nat)
    requires m < |a| && m < |b|
    ensures Cardinality(Combine(op, a, b, m + 1))
            == Cardinality(Combine(op, a, b, m)) + Popcount(Apply(op, a[m], b[m]))
  {
    CombineSnoc(op, a, b, m);
    CardinalityAppend(Combine(op, a, b, m), [Apply(op, a[m], b[m])]);
  }

  /** One more word of a prefix adds its popcount. */
  lemma PrefixStep(s: seq<bv64>, m: nat)
    requires m < |s|
    ensures Cardinality(s[..m + 1]) == Cardinality(s[..m]) + Popcount(s[m])
  {
    assert s[..m + 1] == s[..m] + [s[m]];
    CardinalityAppend(s[..m], [s[m]]);
  }
}

=== FILE: oracle.dfy ===
/** The reference set algebra the library's tests compare against
    (`compute_result` and `generate_data` of `src/test.rs`): union by sorting
    and de-duplicating the concatenation, and intersection, difference and
    symmetric difference by two-pointer merges over sorted inputs. */
module Oracle {
  import opened Sequences

  /** The four binary set operations. */
  datatype OpType = Or | And | AndNot | Xor

  /** Membership truth table of each operation: whether a value belongs to the
      result given whether it belongs to the first and to the second operand. */
  predicate OpHolds(op: OpType, inA: bool, inB: bool) {
    match op
    case Or => inA || inB
    case And => inA && inB
    case AndNot => inA && !inB
    case Xor => inA != inB
  }

  /** Inserts `x` into a sorted sequence, before the first element not below it. */
  function Insert(s: seq<int>, x: int): (r: seq<int>)
    requires Sorted(s)
    ensures Sorted(r)
    ensures multiset(r) == multiset(s) + multiset{x}
    ensures forall y :: y in r ==> y in s || y == x
  {
    if |s| == 0 then [x]
    else if x <= s[0] then [x] + s
    else
      var rest := Insert(s[1..], x);
      assert s == [s[0]] + s[1..];
      SortedCons(s[0], rest);
      [s[0]] + rest
  }

  lemma SortedCons(x: int, s: seq<int>)
    requires Sorted(s) && forall y :: y in s ==> x <= y
    ensures Sorted([x] + s)
  {
    forall i, j | 0 <= i <= j < |[x] + s|
      ensures ([x] + s)[i] <= ([x] + s)[j]
    {
      if i == 0 && j > 0 {
        assert ([x] + s)[j] == s[j - 1];
        assert s[j - 1] in s;
      }
    }
  }

  /** `Vec::sort`: a sorted permutation of the input. */
  function Sort(s: seq<int>): (r: seq<int>)
    ensures Sorted(r)
    ensures multiset(r) == multiset(s)
  {
    if |s| == 0 then []
    else
      assert s == [s[0]] + s[1..];
      Insert(Sort(s[1..]), s[0])
  }

  /** `Vec::dedup`: drops every element equal to the one kept just before it. */
  function Dedup(s: seq<int>): (r: seq<int>)
    ensures Elems(r) == Elems(s)
    ensures |r| <= |s|
    ensures |s| > 0 ==> |r| > 0 && r[0] == s[0]
    ensures Sorted(s) ==> Ascending(r)
  {
    if |s| <= 1 then s
    else
      ElemsCons(s);
      ElemsCons(s[1..]);
      if s[0] == s[1] then Dedup(s[1..])
      else
        var rest := Dedup(s[1..]);
        ElemsCons([s[0]] + rest);
        assert ([s[0]] + rest)[1..] == rest;
        [s[0]] + rest
  }

  lemma ElemsOfPermutation(s: seq<int>, t: seq<int>)
    requires multiset(s) == multiset(t)
    ensures Elems(s) == Elems(t)
  {
    forall x
      ensures x in Elems(s) <==> x in Elems(t)
    {
      assert x in s <==> x in multiset(s);
      assert x in t <==> x in multiset(t);
    }
  }

  /** `generate_data`: the values drawn from the random generator (every one
      in `[lo, hi)`), sorted and de-duplicated. Whatever is drawn, the result
      is strictly ascending and holds exactly the drawn values. */
  function GenerateData(lo: int, hi: int, draws: seq<int>): (r: seq<int>)
    requires forall i :: 0 <= i < |draws| ==> lo <= draws[i] < hi
    ensures Ascending(r)
    ensures Elems(r) == Elems(draws)
    ensures |r| <= |draws|
    ensures forall i :: 0 <= i < |r| ==> lo <= r[i] < hi
  {
    var sorted := Sort(draws);
    ElemsOfPermutation(sorted, draws);
    assert |sorted| == |draws| by {
      assert |multiset(sorted)| == |multiset(draws)|;
    }
    var r := Dedup(sorted);
    assert forall i :: 0 <= i < |r| ==> r[i] in Elems(draws);
    r
  }

  /** `compute_result` for `Or`: the concatenation, sorted and de-duplicated.
      Every value of either operand appears exactly once, in ascending order. */
  function Union(a: seq<int>, b: seq<int>): (r: seq<int>)
    ensures Ascending(r)
    ensures Elems(r) == Elems(a) + Elems(b)
    ensures |r| <= |a| + |b|
  {
    var sorted := Sort(a + b);
    ElemsOfPermutation(sorted, a + b);
    assert Elems(a + b) == Elems(a) + Elems(b);
    assert |sorted| == |a + b| by {
      assert |multiset(sorted)| == |multiset(a + b)|;
    }
    Dedup(sorted)
  }

  /** `compute_result` for `And`: skip the smaller head, keep a shared head. */
  function Intersection(a: seq<int>, b: seq<int>): (r: seq<int>)
    ensures Elems(r) <= Elems(a) * Elems(b)
    ensures |r| <= |a| && |r| <= |b|
    ensures Ascending(a) && Ascending(b) ==>
              Ascending(r) && Elems(r) == Elems(a) * Elems(b)
    decreases |a| + |b|
  {
    if |a| == 0 || |b| == 0 then []
    else
      ElemsCons(a);
      ElemsCons(b);
      if a[0] < b[0] then Intersection(a[1..], b)
      else if b[0] < a[0] then Intersection(a, b[1..])
      else
        var rest := Intersection(a[1..], b[1..]);
        AscendingTail(a);
        ElemsIn(rest);
        AscendingCons(a[0], rest);
        ElemsCons([a[0]] + rest);
        assert ([a[0]] + rest)[1..] == rest;
        [a[0]] + rest
  }

  /** `compute_result` for `AndNot`: keep a head of `a` below `b`'s head, drop
      shared heads, and keep whatever is left of `a` once `b` runs out. */
  function Difference(a: seq<int>, b: seq<int>): (r: seq<int>)
    ensures Elems(r) <= Elems(a)
    ensures |r| <= |a|
    ensures Ascending(a) && Ascending(b) ==>
              Ascending(r) && Elems(r) == Elems(a) - Elems(b)
    decreases |a| + |b|
  {
    if |a| == 0 then []
    else if |b| == 0 then a
    else
      ElemsCons(a);
      ElemsCons(b);
      if a[0] < b[0] then
        var rest := Difference(a[1..], b);
        AscendingTail(a);
        ElemsIn(rest);
        AscendingCons(a[0], rest);
        ElemsCons([a[0]] + rest);
        assert ([a[0]] + rest)[1..] == rest;
        [a[0]] + rest
      else if b[0] < a[0] then Difference(a, b[1..])
      else Difference(a[1..], b[1..])
  }

  /** `compute_result` for `Xor`: keep whichever head is smaller, drop shared
      heads, and keep both leftover tails. */
  function SymmetricDifference(a: seq<int>, b: seq<int>): (r: seq<int>)
    ensures Elems(r) <= Elems(a) + Elems(b)
    ensures |r| <= |a| + |b|
    ensures Ascending(a) && Ascending(b) ==>
              Ascending(r) && Elems(r) == (Elems(a) - Elems(b)) + (Elems(b) - Elems(a))
    decreases |a| + |b|
  {
    if |a| == 0 then b
    else if |b| == 0 then a
    else
      ElemsCons(a);
      ElemsCons(b);
      if a[0] < b[0] then
        var rest := SymmetricDifference(a[1..], b);
        XorKeepsHead(a, b, rest);
        [a[0]] + rest
      else if b[0] < a[0] then
        var rest := SymmetricDifference(a, b[1..]);
        XorKeepsHead(b, a, rest);
        [b[0]] + rest
      else SymmetricDifference(a[1..], b[1..])
  }

  /** The step of the symmetric difference that keeps the head of `p`, the
      operand whose head is smaller than the head of `q`. */
  lemma XorKeepsHead(p: seq<int>, q: seq<int>, rest: seq<int>)
    requires |p| > 0 && |q| > 0 && p[0] < q[0]
    requires Elems(rest) <= Elems(p[1..]) + Elems(q)
    requires Ascending(p) && Ascending(q) ==>
               Ascending(rest) && Elems(rest) == (Elems(p[1..]) - Elems(q)) + (Elems(q) - Elems(p[1..]))
    ensures Elems([p[0]] + rest) <= Elems(p) + Elems(q)
    ensures Ascending(p) && Ascending(q) ==>
              Ascending([p[0]] + rest) &&
              Elems([p[0]] + rest) == (Elems(p) - Elems(q)) + (Elems(q) - Elems(p))
  {
    ElemsCons(p);
    ElemsCons([p[0]] + rest);
    assert ([p[0]] + rest)[1..] == rest;
    if Ascending(p) && Ascending(q) {
      AscendingTail(p);
      AscendingTail(q);
      ElemsIn(rest);
      ElemsIn(q);
      AscendingCons(p[0], rest);
      assert p[0] !in Elems(q);
      assert p[0] !in Elems(p[1..]);
    }
  }

  /** `compute_result`: on strictly ascending inputs every operation yields a
      strictly ascending sequence holding exactly the values its truth table
      admits. */
  function ComputeResult(a: seq<int>, b: seq<int>, op: OpType): (r: seq<int>)
    ensures Ascending(a) && Ascending(b) ==>
              Ascending(r) && forall x :: x in r <==> OpHolds(op, x in a, x in b)
  {
    var r := match op
      case Or => Union(a, b)
      case And => Intersection(a, b)
      case AndNot => Difference(a, b)
      case Xor => SymmetricDifference(a, b);
    assert forall x :: x in r <==> x in Elems(r);
    r
  }

  /** For deduplicated inputs, |a ∪ b| + |a ∩ b| = |a| + |b|. */
  lemma UnionIntersectionCardinality(a: seq<int>, b: seq<int>)
    requires Ascending(a) && Ascending(b)
    ensures |Union(a, b)| + |Intersection(a, b)| == |a| + |b|
  {
    AscendingCard(a);
    AscendingCard(b);
    AscendingCard(Union(a, b));
    AscendingCard(Intersection(a, b));
  }

  /** A ∖ B = A △ (A ∩ B), as sequences and not just as sets. */
  lemma DifferenceIsXorWithIntersection(a: seq<int>, b: seq<int>)
    requires Ascending(a) && Ascending(b)
    ensures Difference(a, b) == SymmetricDifference(a, Intersection(a, b))
  {
    AscendingUnique(Difference(a, b), SymmetricDifference(a, Intersection(a, b)));
  }

  /** The union of a deduplicated sequence with itself gives it back. */
  lemma UnionIdempotent(a: seq<int>)
    requires Ascending(a)
    ensures Union(a, a) == a
  {
    var u := Union(a, a);
    assert Elems(u) == Elems(a);
    AscendingUnique(u, a);
  }

  /** The intersection of a deduplicated sequence with itself gives it back. */
  lemma IntersectionIdempotent(a: seq<int>)
    requires Ascending(a)
    ensures Intersection(a, a) == a
  {
    var n := Intersection(a, a);
    assert Elems(n) == Elems(a);
    AscendingUnique(n, a);
  }

  /** The subset test: the first half of a non-empty deduplicated sequence is
      a subset of it, and the whole is not a subset of that half. */
  lemma PrefixSubset(a: seq<int>)
    requires Ascending(a) && |a| > 0
    ensures Elems(a[..|a| / 2]) <= Elems(a)
    ensures !(Elems(a) <= Elems(a[..|a| / 2]))
  {
    var b := a[..|a| / 2];
    var last := a[|a| - 1];
    assert last in Elems(a);
    assert forall i :: 0 <= i < |b| ==> b[i] < last;
    assert last !in Elems(b);
  }
}

=== FILE: roaring.dfy ===
/** The two-level index of `src/roaring.rs`: a value is split into a 16-bit
    key and a 16-bit low half; `keys` lists the keys and `containers` holds,
    at the same position, the low halves stored under each key. The container
    kinds are not part of this model: a container is the set of low halves it
    holds, with add, remove and cardinality as set operations. */
module Roaring {
  import opened Wrappers
  import opened Sequences

  /** The low halves stored under one key. */
  type Container = set<U16>

  datatype RoaringBitmap = RoaringBitmap(containers: seq<Container>, keys: seq<U16>)

  /** `(x >> 16) as u16`: the key of a value, truncated to 16 bits. */
  function High(x: nat): U16 {
    (x / 0x1_0000) % 0x1_0000
  }

  /** `(x & 0xFFFF) as u16`: the low half of a value. */
  function Low(x: nat): U16 {
    x % 0x1_0000
  }

  /** For a 32-bit value the key and the low half put back together give the
      value again. */
  lemma SplitRecombines(x: nat)
    requires x < 0x1_0000_0000
    ensures High(x) * 0x1_0000 + Low(x) == x
  {
  }

  /** Below 2^32 the split is one-to-one; the truncating cast makes values
      2^32 apart share key and low half. */
  lemma SplitIsInjective(x: nat, y: nat)
    requires x < 0x1_0000_0000 && y < 0x1_0000_0000
    ensures High(x) == High(y) && Low(x) == Low(y) <==> x == y
  {
    SplitRecombines(x);
    SplitRecombines(y);
  }

  lemma SplitTruncates()
    ensures High(0x1_0000_0000) == High(0) && Low(0x1_0000_0000) == Low(0)
  {
  }

  /** The invariant every constructor and mutator of the struct keeps: one
      container per key. */
  predicate Paired(bm: RoaringBitmap) {
    |bm.containers| == |bm.keys|
  }

  /** The shape lookups rely on: keys strictly ascending, and no container
      stored empty. */
  predicate WellFormed(bm: RoaringBitmap) {
    && Paired(bm)
    && Ascending(bm.keys)
    && forall i :: 0 <= i < |bm.containers| ==> bm.containers[i] != {}
  }

  /** The bitmap stores `low` under `key`. */
  predicate Holds(bm: RoaringBitmap, key: U16, low: U16) {
    exists i :: 0 <= i < |bm.keys| && i < |bm.containers| && bm.keys[i] == key && low in bm.containers[i]
  }

  /** `new` and `with_capacity`: no keys and no containers (the capacity is
      an allocation hint only). */
  function New(): (r: RoaringBitmap)
    ensures WellFormed(r)
    ensures forall key: U16, low: U16 :: !Holds(r, key, low)
  {
    RoaringBitmap([], [])
  }

  /** `get_index`: the standard slice search of the keys, keeping only a hit.
      A hit always names a position holding the key; on sorted keys the
      search hits exactly when the key is present. */
  function GetIndex(bm: RoaringBitmap, key: U16): (r: Option<nat>)
    ensures r.Some? ==> r.value < |bm.keys| && bm.keys[r.value] == key
    ensures Sorted(bm.keys) ==> (r.Some? <==> key in bm.keys)
  {
    assert Sorted(bm.keys) ==> (BinarySearch(bm.keys, key).Ok? <==> key in bm.keys) by {
      if Sorted(bm.keys) { SearchFindsPresent(bm.keys, key); }
    }
    match BinarySearch(bm.keys, key)
    case Ok(i) => Some(i)
    case Err(_) => None
  }

  /** A lookup through `get_index`, the way `add` and `remove` find the
      container of a key. */
  predicate Lookup(bm: RoaringBitmap, key: U16, low: U16) {
    match GetIndex(bm, key)
    case Some(i) => i < |bm.containers| && low in bm.containers[i]
    case None => false
  }

  /** On a well-formed bitmap the lookup sees exactly what the bitmap holds. */
  lemma LookupIsHolds(bm: RoaringBitmap, key: U16, low: U16)
    requires WellFormed(bm)
    ensures Lookup(bm, key, low) <==> Holds(bm, key, low)
  {
    AscendingIsSorted(bm.keys);
    if Holds(bm, key, low) {
      var i :| 0 <= i < |bm.keys| && i < |bm.containers| && bm.keys[i] == key && low in bm.containers[i];
      assert key in bm.keys;
      var j := GetIndex(bm, key).value;
      assert i == j;
    }
  }

  /** `r` holds what `bm` holds plus `low` under `key`. */
  predicate HoldsPlus(bm: RoaringBitmap, r: RoaringBitmap, key: U16, low: U16) {
    forall k: U16, l: U16 :: Holds(r, k, l) <==> Holds(bm, k, l) || (k == key && l == low)
  }

  /** `r` holds what `bm` holds except `low` under `key`. */
  predicate HoldsMinus(bm: RoaringBitmap, r: RoaringBitmap, key: U16, low: U16) {
    forall k: U16, l: U16 :: Holds(r, k, l) <==> Holds(bm, k, l) && !(k == key && l == low)
  }

  /** `s` with `x` inserted at position `i`. */
  function InsertAt<T>(s: seq<T>, i: nat, x: T): (r: seq<T>)
    requires i <= |s|
    ensures |r| == |s| + 1 && r[i] == x
    ensures forall j :: 0 <= j < i ==> r[j] == s[j]
    ensures forall j :: i < j < |r| ==> r[j] == s[j - 1]
  {
    s[..i] + [x] + s[i..]
  }

  /** `s` without its element at position `i`. */
  function DeleteAt<T>(s: seq<T>, i: nat): (r: seq<T>)
    requires i < |s|
    ensures |r| == |s| - 1
    ensures forall j :: 0 <= j < i ==> r[j] == s[j]
    ensures forall j :: i <= j < |r| ==> r[j] == s[j + 1]
  {
    s[..i] + s[i + 1..]
  }

  /** `add` as written: a key the search finds gets the low half added to
      its container; any other key is pushed with a new one-value container
      at the end of both vectors, wherever it belongs in the order. */
  function AddAsWritten(bm: RoaringBitmap, x: nat): (r: RoaringBitmap)
    requires Paired(bm)
    ensures Paired(r)
    ensures HoldsPlus(bm, r, High(x), Low(x))
    ensures GetIndex(bm, High(x)).Some? ==>
              var i := GetIndex(bm, High(x)).value;
              r.keys == bm.keys && |r.containers| == |bm.containers| &&
              r.containers[i] == bm.containers[i] + {Low(x)} &&
              forall j :: 0 <= j < |bm.containers| && j != i ==> r.containers[j] == bm.containers[j]
    ensures GetIndex(bm, High(x)).None? ==>
              r.keys == bm.keys + [High(x)] && r.containers == bm.containers + [{Low(x)}]
  {
    var key, low := High(x), Low(x);
    match GetIndex(bm, key)
    case Some(i) =>
      AddAtEntry(bm, i, key, low);
      RoaringBitmap(bm.containers[i := bm.containers[i] + {low}], bm.keys)
    case None =>
      InsertHolds(bm, |bm.keys|, key, low);
      assert InsertAt(bm.keys, |bm.keys|, key) == bm.keys + [key];
      assert InsertAt(bm.containers, |bm.keys|, {low}) == bm.containers + [{low}];
      RoaringBitmap(bm.containers + [{low}], bm.keys + [key])
  }

  /** Adding a low half to the container of an entry holding `key` adds
      exactly that value, whatever the order of the keys. */
  lemma AddAtEntry(bm: RoaringBitmap, i: nat, key: U16, low: U16)
    requires Paired(bm) && i < |bm.keys| && bm.keys[i] == key
    ensures HoldsPlus(bm, RoaringBitmap(bm.containers[i := bm.containers[i] + {low}], bm.keys), key, low)
  {
    var r := RoaringBitmap(bm.containers[i := bm.containers[i] + {low}], bm.keys);
    forall k: U16, l: U16
      ensures Holds(r, k, l) <==> Holds(bm, k, l) || (k == key && l == low)
    {
      if Holds(r, k, l) {
        var j :| 0 <= j < |r.keys| && j < |r.containers| && r.keys[j] == k && l in r.containers[j];
        if !(k == key && l == low) {
          assert l in bm.containers[j];
        }
      }
      if Holds(bm, k, l) {
        var j :| 0 <= j < |bm.keys| && j < |bm.containers| && bm.keys[j] == k && l in bm.containers[j];
        assert l in r.containers[j];
      }
      if k == key && l == low {
        assert l in r.containers[i];
      }
    }
  }

  /** Appending keeps the keys in order only when the new key exceeds every
      key present. */
  lemma AddAsWrittenInOrder(bm: RoaringBitmap, x: nat)
    requires WellFormed(bm)
    requires forall i :: 0 <= i < |bm.keys| ==> bm.keys[i] < High(x)
    ensures WellFormed(AddAsWritten(bm, x))
  {
    AscendingIsSorted(bm.keys);
    assert High(x) !in bm.keys;
  }

  /** Adding 65536, then 0, then 65537 to an empty bitmap: the search for key
      1 in the keys `[1, 0]` misses, so key 1 is pushed a second time, and a
      lookup of 65536 then lands on the second entry for key 1, which does not
      hold it. */
  lemma AddAsWrittenLosesValue()
    ensures var r := AddAsWritten(AddAsWritten(AddAsWritten(New(), 0x1_0000), 0), 0x1_0001);
            r.keys == [1, 0, 1] && Holds(r, 1, 0) && !Lookup(r, 1, 0)
  {
    AddFirst();
    AddSecond();
    AddThird();
    DuplicateKeyHidesValue();
  }

  lemma DuplicateKeyHidesValue()
    ensures var r := RoaringBitmap([{0}, {0}, {1}], [1, 0, 1]);
            Holds(r, 1, 0) && !Lookup(r, 1, 0)
  {
    var r := RoaringBitmap([{0}, {0}, {1}], [1, 0, 1]);
    assert r.keys[0] == 1 && 0 in r.containers[0];
    SearchDuplicateKey();
    assert GetIndex(r, 1) == Some(2);
  }

  /** The search for key 1 in `[1, 0, 1]` lands on the last entry. */
  lemma SearchDuplicateKey()
    ensures BinarySearch([1, 0, 1], 1) == Ok(2)
  {
    var s := [1, 0, 1];
    assert HalvingSearch(s, 1, 2, 1) == Ok(2);
    assert HalvingSearch(s, 1, 1, 2) == HalvingSearch(s, 1, 2, 1);
    assert HalvingSearch(s, 1, 0, 3) == HalvingSearch(s, 1, 1, 2);
  }

  lemma AddFirst()
    ensures AddAsWritten(New(), 0x1_0000) == RoaringBitmap([{0}], [1])
  {
    assert High(0x1_0000) == 1 && Low(0x1_0000) == 0;
  }

  lemma AddSecond()
    ensures AddAsWritten(RoaringBitmap([{0}], [1]), 0) == RoaringBitmap([{0}, {0}], [1, 0])
  {
    assert BinarySearch([1], 0) == Err(0);
  }

  lemma AddThird()
    ensures AddAsWritten(RoaringBitmap([{0}, {0}], [1, 0]), 0x1_0001) == RoaringBitmap([{0}, {0}, {1}], [1, 0, 1])
  {
    assert High(0x1_0001) == 1 && Low(0x1_0001) == 1;
    assert BinarySearch([1, 0], 1) == Err(2);
  }

  /** `add` as the ordering of the keys requires: a new key is inserted at
      the position the search reports, so the bitmap stays well formed and
      gains exactly the added value. */
  function Add(bm: RoaringBitmap, x: nat): (r: RoaringBitmap)
    requires Paired(bm)
    ensures Paired(r)
    ensures WellFormed(bm) ==> WellFormed(r)
    ensures WellFormed(bm) ==> HoldsPlus(bm, r, High(x), Low(x))
  {
    var key, low := High(x), Low(x);
    match BinarySearch(bm.keys, key)
    case Ok(i) =>
      var r := RoaringBitmap(bm.containers[i := bm.containers[i] + {low}], bm.keys);
      assert WellFormed(bm) ==> WellFormed(r) && HoldsPlus(bm, r, key, low) by {
        if WellFormed(bm) { AddToExisting(bm, i, key, low); }
      }
      r
    case Err(i) =>
      var r := RoaringBitmap(InsertAt(bm.containers, i, {low}), InsertAt(bm.keys, i, key));
      assert WellFormed(bm) ==> WellFormed(r) && HoldsPlus(bm, r, key, low) by {
        if WellFormed(bm) {
          AscendingIsSorted(bm.keys);
          AddNewKey(bm, i, key, low);
        }
      }
      r
  }

  lemma AddToExisting(bm: RoaringBitmap, i: nat, key: U16, low: U16)
    requires WellFormed(bm) && i < |bm.keys| && bm.keys[i] == key
    ensures var r := RoaringBitmap(bm.containers[i := bm.containers[i] + {low}], bm.keys);
            WellFormed(r) &&
            HoldsPlus(bm, r, key, low)
  {
    AddAtEntry(bm, i, key, low);
  }

  lemma AddNewKey(bm: RoaringBitmap, i: nat, key: U16, low: U16)
    requires WellFormed(bm) && i <= |bm.keys|
    requires forall j :: 0 <= j < i ==> bm.keys[j] < key
    requires forall j :: i <= j < |bm.keys| ==> bm.keys[j] > key
    ensures var r := RoaringBitmap(InsertAt(bm.containers, i, {low}), InsertAt(bm.keys, i, key));
            WellFormed(r) &&
            HoldsPlus(bm, r, key, low)
  {
    InsertKeepsAscending(bm.keys, i, key);
    InsertHolds(bm, i, key, low);
  }

  /** Inserting a key at the insertion point keeps the keys ascending. */
  lemma InsertKeepsAscending(s: seq<U16>, i: nat, x: U16)
    requires Ascending(s) && i <= |s|
    requires forall j :: 0 <= j < i ==> s[j] < x
    requires forall j :: i <= j < |s| ==> s[j] > x
    ensures Ascending(InsertAt(s, i, x))
  {
    var r := InsertAt(s, i, x);
    forall p, q | 0 <= p < q < |r|
      ensures r[p] < r[q]
    {
      if q > i {
        assert r[q] == s[q - 1];
        if p > i {
          assert r[p] == s[p - 1];
        }
      }
    }
  }

  lemma InsertHolds(bm: RoaringBitmap, i: nat, key: U16, low: U16)
    requires Paired(bm) && i <= |bm.keys|
    ensures HoldsPlus(bm, RoaringBitmap(InsertAt(bm.containers, i, {low}), InsertAt(bm.keys, i, key)), key, low)
  {
    var r := RoaringBitmap(InsertAt(bm.containers, i, {low}), InsertAt(bm.keys, i, key));
    forall k: U16, l: U16
      ensures Holds(r, k, l) <==> Holds(bm, k, l) || (k == key && l == low)
    {
      if Holds(r, k, l) {
        var j :| 0 <= j < |r.keys| && j < |r.containers| && r.keys[j] == k && l in r.containers[j];
        if j < i {
          assert bm.keys[j] == k && l in bm.containers[j];
        } else if j > i {
          assert bm.keys[j - 1] == k && l in bm.containers[j - 1];
        }
      }
      if Holds(bm, k, l) {
        var j :| 0 <= j < |bm.keys| && j < |bm.containers| && bm.keys[j] == k && l in bm.containers[j];
        if j < i {
          assert r.keys[j] == k && l in r.containers[j];
        } else {
          assert r.keys[j + 1] == k && l in r.containers[j + 1];
        }
      }
      if k == key && l == low {
        assert r.keys[i] == k && l in r.containers[i];
      }
    }
  }

  /** `remove` as written (as the method it is evidently meant to be; the
      source declares a `Self` result it never returns): the low half is taken
      out of the container the search finds, and when that container becomes
      empty the LAST entry of both vectors is popped, whichever entry it is. */
  function RemoveAsWritten(bm: RoaringBitmap, x: nat): (r: RoaringBitmap)
    requires Paired(bm)
    ensures Paired(r)
    ensures GetIndex(bm, High(x)).None? ==> r == bm
    ensures GetIndex(bm, High(x)).Some? ==>
              var i := GetIndex(bm, High(x)).value;
              if bm.containers[i] - {Low(x)} == {} then
                r.keys == bm.keys[..|bm.keys| - 1] &&
                r.containers == bm.containers[i := {}][..|bm.containers| - 1]
              else
                r.keys == bm.keys && |r.containers| == |bm.containers| &&
                r.containers[i] == bm.containers[i] - {Low(x)} &&
                forall j :: 0 <= j < |bm.containers| && j != i ==> r.containers[j] == bm.containers[j]
  {
    var key, low := High(x), Low(x);
    match GetIndex(bm, key)
    case None => bm
    case Some(i) =>
      var containers := bm.containers[i := bm.containers[i] - {low}];
      if |containers[i]| == 0 then
        RoaringBitmap(containers[..|containers| - 1], bm.keys[..|bm.keys| - 1])
      else
        RoaringBitmap(containers, bm.keys)
  }

  /** With keys `[0, 1]` each holding the low half 1, removing 1 empties the
      container of key 0 but pops the entry of key 1: the bitmap keeps an
      empty container under key 0 and loses 65537, which was never removed. */
  lemma RemoveAsWrittenLosesValue()
    ensures var bm := RoaringBitmap([{1}, {1}], [0, 1]);
            var r := RemoveAsWritten(bm, 1);
            Holds(bm, 1, 1) && !Holds(r, 1, 1) && r.containers == [{}]
  {
    var bm := RoaringBitmap([{1}, {1}], [0, 1]);
    assert bm.keys[1] == 1 && 1 in bm.containers[1];
    RemovePopsLast();
    var r := RoaringBitmap([{}], [0]);
    assert !Holds(r, 1, 1) by {
      assert forall i :: 0 <= i < |r.keys| ==> r.keys[i] == 0;
    }
  }

  lemma RemovePopsLast()
    ensures RemoveAsWritten(RoaringBitmap([{1}, {1}], [0, 1]), 1) == RoaringBitmap([{}], [0])
  {
    assert High(1) == 0 && Low(1) == 1;
    assert BinarySearch([0, 1], 0) == Ok(0);
  }

  /** `remove` as the pairing of keys and containers requires: the entry whose
      container becomes empty is the one deleted, so the bitmap stays well
      formed and loses exactly the removed value. */
  function Remove(bm: RoaringBitmap, x: nat): (r: RoaringBitmap)
    requires Paired(bm)
    ensures Paired(r)
    ensures GetIndex(bm, High(x)).None? ==> r == bm
    ensures WellFormed(bm) ==> WellFormed(r)
    ensures WellFormed(bm) ==> HoldsMinus(bm, r, High(x), Low(x))
  {
    var key, low := High(x), Low(x);
    match GetIndex(bm, key)
    case None =>
      assert WellFormed(bm) ==> HoldsMinus(bm, bm, key, low) by {
        if WellFormed(bm) { RemoveAbsent(bm, key, low); }
      }
      bm
    case Some(i) =>
      var c := bm.containers[i] - {low};
      if c == {} then
        var r := RoaringBitmap(DeleteAt(bm.containers, i), DeleteAt(bm.keys, i));
        assert WellFormed(bm) ==> WellFormed(r) && HoldsMinus(bm, r, key, low) by {
          if WellFormed(bm) { RemoveEntry(bm, i, key, low); }
        }
        r
      else
        var r := RoaringBitmap(bm.containers[i := c], bm.keys);
        assert WellFormed(bm) ==> WellFormed(r) && HoldsMinus(bm, r, key, low) by {
          if WellFormed(bm) { RemoveFromEntry(bm, i, key, low); }
        }
        r
  }

  lemma RemoveAbsent(bm: RoaringBitmap, key: U16, low: U16)
    requires WellFormed(bm) && GetIndex(bm, key).None?
    ensures HoldsMinus(bm, bm, key, low)
  {
    AscendingIsSorted(bm.keys);
    forall k: U16, l: U16 | Holds(bm, k, l)
      ensures !(k == key && l == low)
    {
      var j :| 0 <= j < |bm.keys| && j < |bm.containers| && bm.keys[j] == k && l in bm.containers[j];
      assert k in bm.keys;
    }
  }

  /** In ascending keys a key sits at one position only. */
  lemma KeyAtOnePlace(bm: RoaringBitmap, i: nat, j: nat)
    requires Ascending(bm.keys) && i < |bm.keys| && j < |bm.keys|
    ensures bm.keys[i] == bm.keys[j] ==> i == j
  {
  }

  lemma RemoveFromEntry(bm: RoaringBitmap, i: nat, key: U16, low: U16)
    requires WellFormed(bm) && i < |bm.keys| && bm.keys[i] == key
    requires bm.containers[i] - {low} != {}
    ensures var r := RoaringBitmap(bm.containers[i := bm.containers[i] - {low}], bm.keys);
            WellFormed(r) &&
            HoldsMinus(bm, r, key, low)
  {
    var r := RoaringBitmap(bm.containers[i := bm.containers[i] - {low}], bm.keys);
    forall k: U16, l: U16
      ensures Holds(r, k, l) <==> Holds(bm, k, l) && !(k == key && l == low)
    {
      if Holds(r, k, l) {
        var j :| 0 <= j < |r.keys| && j < |r.containers| && r.keys[j] == k && l in r.containers[j];
        assert l in bm.containers[j];
      }
      if Holds(bm, k, l) && !(k == key && l == low) {
        var j :| 0 <= j < |bm.keys| && j < |bm.containers| && bm.keys[j] == k && l in bm.containers[j];
        assert l in r.containers[j];
      }
      if Holds(r, k, l) && k == key {
        var j :| 0 <= j < |r.keys| && j < |r.containers| && r.keys[j] == k && l in r.containers[j];
        KeyAtOnePlace(bm, i, j);
      }
    }
  }

  lemma RemoveEntry(bm: RoaringBitmap, i: nat, key: U16, low: U16)
    requires WellFormed(bm) && i < |bm.keys| && bm.keys[i] == key
    requires bm.containers[i] - {low} == {}
    ensures var r := RoaringBitmap(DeleteAt(bm.containers, i), DeleteAt(bm.keys, i));
            WellFormed(r) &&
            HoldsMinus(bm, r, key, low)
  {
    var r := RoaringBitmap(DeleteAt(bm.containers, i), DeleteAt(bm.keys, i));
    assert Ascending(r.keys) by {
      forall p, q | 0 <= p < q < |r.keys|
        ensures r.keys[p] < r.keys[q]
      {
        if p < i && q >= i {
          assert r.keys[q] == bm.keys[q + 1];
        } else if p >= i {
          assert r.keys[p] == bm.keys[p + 1] && r.keys[q] == bm.keys[q + 1];
        }
      }
    }
    forall k: U16, l: U16
      ensures Holds(r, k, l) <==> Holds(bm, k, l) && !(k == key && l == low)
    {
      if Holds(r, k, l) {
        var j :| 0 <= j < |r.keys| && j < |r.containers| && r.keys[j] == k && l in r.containers[j];
        var j' := if j < i then j else j + 1;
        assert bm.keys[j'] == k && l in bm.containers[j'];
        KeyAtOnePlace(bm, i, j');
      }
      if Holds(bm, k, l) && !(k == key && l == low) {
        var j :| 0 <= j < |bm.keys| && j < |bm.containers| && bm.keys[j] == k && l in bm.containers[j];
        if j < i {
          assert r.keys[j] == k && l in r.containers[j];
        } else {
          assert bm.containers[i] <= {low};
          assert j != i;
          assert r.keys[j - 1] == k && l in r.containers[j - 1];
        }
      }
    }
  }

  /** `clear`: both vectors emptied. */
  function Clear(bm: RoaringBitmap): (r: RoaringBitmap)
    ensures WellFormed(r)
    ensures forall key: U16, low: U16 :: !Holds(r, key, low)
  {
    RoaringBitmap([], [])
  }

  /** Removing a value just added to a bitmap that did not hold it gives the
      original values back. */
  lemma RemoveUndoesAdd(bm: RoaringBitmap, x: nat)
    requires WellFormed(bm) && !Holds(bm, High(x), Low(x))
    ensures forall key: U16, low: U16 :: Holds(Remove(Add(bm, x), x), key, low) <==> Holds(bm, key, low)
  {
  }
}

=== FILE: roaring_array.dfy ===
/** The key/container store of `src/roaring_array.rs`. Its `Key` type is not
    declared in the library, so keys are modelled as 16-bit values; containers
    are, as in module `Roaring`, the sets of low halves they hold. */
module RoaringArrays {
  import opened Sequences
  import opened Roaring

  datatype RoaringArray = RoaringArray(containers: seq<Container>, keys: seq<U16>)

  /** `len`: the number of containers (not of keys). */
  function Len(ra: RoaringArray): nat {
    |ra.containers|
  }

  /** `new` and `with_capacity`: both vectors empty (the capacity is an
      allocation hint only). */
  function New(): (r: RoaringArray)
    ensures Len(r) == 0 && |r.keys| == 0
  {
    RoaringArray([], [])
  }

  /** `append`: the container and the key are pushed at the end of their
      vectors; everything already stored keeps its position. */
  function Append(ra: RoaringArray, key: U16, container: Container): (r: RoaringArray)
    ensures Len(r) == Len(ra) + 1 && |r.keys| == |ra.keys| + 1
    ensures r.containers[Len(ra)] == container && r.keys[|ra.keys|] == key
    ensures r.containers[..Len(ra)] == ra.containers && r.keys[..|ra.keys|] == ra.keys
  {
    RoaringArray(ra.containers + [container], ra.keys + [key])
  }

  /** `reset`: both vectors emptied. */
  function Reset(ra: RoaringArray): (r: RoaringArray)
    ensures Len(r) == 0 && |r.keys| == 0
  {
    RoaringArray([], [])
  }

  /** `clear_containers`: the containers are dropped and the keys kept. */
  function ClearContainers(ra: RoaringArray): (r: RoaringArray)
    ensures Len(r) == 0
    ensures r.keys == ra.keys
  {
    RoaringArray([], ra.keys)
  }

  /** Appends keep keys and containers paired one to one, and `len` then
      counts the keys too. */
  lemma AppendKeepsPairing(ra: RoaringArray, key: U16, container: Container)
    requires |ra.keys| == Len(ra)
    ensures |Append(ra, key, container).keys| == Len(Append(ra, key, container))
  {
  }

  /** `clear_containers` on a store holding keys leaves keys without
      containers: the pairing the other operations keep is broken, and `len`
      reports 0 while keys remain. */
  lemma ClearContainersBreaksPairing(ra: RoaringArray)
    requires |ra.keys| > 0
    ensures |ClearContainers(ra).keys| != Len(ClearContainers(ra))
  {
  }
}

=== FILE: run_ops.dfy ===
/** The run-container helpers of `src/container/run_ops/mod.rs` over runs
    `Rle16 { value, length }` (declared in `src/container/run.rs`), each run
    standing for the values `value ..= value + length`. */
module RunOps {
  import opened Wrappers
  import opened Sequences

  datatype Rle16 = Rle16(value: U16, length: U16)

  /** A value lies in some run. */
  predicate Covers(runs: seq<Rle16>, x: int) {
    exists i :: 0 <= i < |runs| && runs[i].value <= x <= runs[i].value + runs[i].length
  }

  /** The shape runs keep in a run container: each run ends inside the 16-bit
      range, and runs are in increasing order with a gap between them. */
  predicate Normalized(runs: seq<Rle16>) {
    && (forall i :: 0 <= i < |runs| ==> runs[i].value + runs[i].length <= U16Max)
    && (forall i, j :: 0 <= i < j < |runs| ==> runs[i].value + runs[i].length + 1 < runs[j].value)
  }

  /** `is_full`: a single run from 0 of length `u16::MAX`. (The source's test
      calls a `num()` method slices do not have and assigns with `=` instead
      of comparing; this is the comparison it evidently means.) */
  predicate IsFull(runs: seq<Rle16>) {
    |runs| == 1 && runs[0].value == 0 && runs[0].length == U16Max
  }

  /** `is_empty`: no runs. (Like `is_full`, the source calls a `num()`
      method slices do not have; it is read as `len()`.) */
  predicate IsEmpty(runs: seq<Rle16>) {
    |runs| == 0
  }

  /** The runs hold no value exactly when there are none. */
  lemma IsEmptyMeansNoValues(runs: seq<Rle16>)
    ensures IsEmpty(runs) <==> forall x :: !Covers(runs, x)
  {
    if |runs| > 0 {
      assert Covers(runs, runs[0].value);
    }
  }

  /** Normalized runs are full exactly when they hold every 16-bit value. */
  lemma IsFullMeansAllValues(runs: seq<Rle16>)
    requires Normalized(runs)
    ensures IsFull(runs) <==> forall x :: 0 <= x <= U16Max ==> Covers(runs, x)
  {
    if forall x :: 0 <= x <= U16Max ==> Covers(runs, x) {
      assert Covers(runs, 0);
      var i :| 0 <= i < |runs| && runs[i].value <= 0 <= runs[i].value + runs[i].length;
      FirstRunStartsLowest(runs, i);
      GapAfterFirstRun(runs);
      assert runs[0].value + runs[0].length == U16Max;
      LastRunReachesEnd(runs);
    }
  }

  /** In normalized runs, no run starts below the first one. */
  lemma FirstRunStartsLowest(runs: seq<Rle16>, i: nat)
    requires Normalized(runs) && i < |runs|
    ensures runs[0].value <= runs[i].value
  {
    assert i > 0 ==> runs[0].value + runs[0].length + 1 < runs[i].value;
  }

  /** In normalized runs, the value just past the first run is in no run. */
  lemma GapAfterFirstRun(runs: seq<Rle16>)
    requires Normalized(runs) && |runs| > 0
    ensures !Covers(runs, runs[0].value + runs[0].length + 1)
  {
    var next := runs[0].value + runs[0].length + 1;
    forall j | 0 <= j < |runs|
      ensures !(runs[j].value <= next <= runs[j].value + runs[j].length)
    {
      if j > 0 {
        assert runs[0].value + runs[0].length + 1 < runs[j].value;
      }
    }
  }

  /** In normalized runs, no run can follow one that ends at `u16::MAX`. */
  lemma LastRunReachesEnd(runs: seq<Rle16>)
    requires Normalized(runs) && |runs| > 0
    requires runs[0].value + runs[0].length == U16Max
    ensures |runs| == 1
  {
    assert |runs| > 1 ==> runs[1].value > U16Max;
  }

  /** `union` as written. It asserts `out` is empty; an empty operand yields
      the other and a full operand yields itself; otherwise it pushes the run
      that starts first (ties go to `a`) and enters a merge loop whose body
      is empty, which returns at once if that push used up its operand and
      otherwise never ends. Whatever it returns holds no value outside the
      operands; the early exits return the chosen operand itself, which
      holds exactly their union; and past them the one run pushed is all it
      returns. */
  function Union(a: seq<Rle16>, b: seq<Rle16>, out: seq<Rle16>): (r: Exec<seq<Rle16>>)
    ensures r.Panics? <==> |out| > 0
    ensures |out| == 0 && |a| == 0 ==> r == Returns(b)
    ensures |out| == 0 && |a| > 0 && |b| == 0 ==> r == Returns(a)
    ensures |out| == 0 && |a| > 0 && |b| > 0 && IsFull(a) ==> r == Returns(a)
    ensures |out| == 0 && |a| > 0 && |b| > 0 && !IsFull(a) && IsFull(b) ==> r == Returns(b)
    ensures r.Returns? ==> forall x :: Covers(r.value, x) ==> Covers(a, x) || Covers(b, x)
    ensures r.Returns? && (|a| == 0 || |b| == 0 || IsFull(a) || IsFull(b)) ==>
              forall x :: 0 <= x <= U16Max ==> (Covers(r.value, x) <==> Covers(a, x) || Covers(b, x))
    ensures r.Returns? && |a| > 0 && |b| > 0 && !IsFull(a) && !IsFull(b) ==>
              r.value == [if a[0].value <= b[0].value then a[0] else b[0]]
    ensures r.Diverges? <==>
              (|out| == 0 && |a| > 0 && |b| > 0 && !IsFull(a) && !IsFull(b) &&
               (if a[0].value <= b[0].value then |a| > 1 else |b| > 1))
  {
    if |out| != 0 then Panics
    else if |a| == 0 then Returns(b)
    else if |b| == 0 then Returns(a)
    else if IsFull(a) then FullCoversAll(a); Returns(a)
    else if IsFull(b) then FullCoversAll(b); Returns(b)
    else
      var takeA := a[0].value <= b[0].value;
      var first := if takeA then a[0] else b[0];
      var ia := if takeA then 1 else 0;
      var ib := if takeA then 0 else 1;
      assert Covers(if takeA then a else b, first.value);
      SingleRun(first, if takeA then a else b);
      if ia < |a| && ib < |b| then Diverges else Returns([first])
  }

  lemma FullCoversAll(runs: seq<Rle16>)
    requires IsFull(runs)
    ensures forall x :: 0 <= x <= U16Max ==> Covers(runs, x)
  {
    forall x | 0 <= x <= U16Max ensures Covers(runs, x) {
      assert runs[0].value <= x <= runs[0].value + runs[0].length;
    }
  }

  /** A run taken from an operand holds only values of that operand. */
  lemma SingleRun(run: Rle16, runs: seq<Rle16>)
    requires run in runs
    ensures forall x :: Covers([run], x) ==> Covers(runs, x)
  {
    var i :| 0 <= i < |runs| && runs[i] == run;
    forall x | Covers([run], x) ensures Covers(runs, x) {
      assert runs[i].value <= x <= runs[i].value + runs[i].length;
    }
  }

  /** Two single-run operands: the run that starts first is returned and the
      other operand's values are lost. */
  lemma UnionDropsSecondOperand()
    ensures Union([Rle16(0, 0)], [Rle16(5, 0)], []) == Returns([Rle16(0, 0)])
    ensures Covers([Rle16(5, 0)], 5) && !Covers([Rle16(0, 0)], 5)
  {
    assert [Rle16(5, 0)][0].value <= 5 <= [Rle16(5, 0)][0].value + [Rle16(5, 0)][0].length;
  }

  /** When the operand whose run was pushed has more runs, the empty loop
      never ends. */
  lemma UnionHangs()
    ensures Union([Rle16(0, 0), Rle16(10, 0)], [Rle16(5, 0)], []) == Diverges
  {
  }
}

=== FILE: sequences.dfy ===
/** Vocabulary for sorted sequences of integers: ordering predicates, the set
    of elements of a sequence, and the slice search of Rust's standard library
    (`<[T]>::binary_search`), which several routines of the library call. */
module Sequences {
  import opened Wrappers

  /** Rust's `u16`. */
  type U16 = x: int | 0 <= x < 0x1_0000

  const U16Max: U16 := 0xFFFF

  /** Non-decreasing order, what `sort` produces. */
  predicate Sorted(s: seq<int>) {
    forall i, j :: 0 <= i <= j < |s| ==> s[i] <= s[j]
  }

  /** Strictly ascending order: sorted and free of duplicates. */
  predicate Ascending(s: seq<int>) {
    forall i, j :: 0 <= i < j < |s| ==> s[i] < s[j]
  }

  /** The set of values a sequence holds. */
  function Elems(s: seq<int>): set<int> {
    set x | x in s
  }

  lemma ElemsIn(s: seq<int>)
    ensures forall y :: y in s <==> y in Elems(s)
  {
  }

  lemma AscendingIsSorted(s: seq<int>)
    requires Ascending(s)
    ensures Sorted(s)
  {
  }

  lemma ElemsCons(s: seq<int>)
    requires |s| > 0
    ensures Elems(s) == {s[0]} + Elems(s[1..])
  {
    assert s == [s[0]] + s[1..];
  }

  /** Putting a value below all of an ascending sequence in front of it keeps
      it ascending. */
  lemma AscendingCons(x: int, s: seq<int>)
    ensures Ascending(s) && (forall y :: y in s ==> x < y) ==> Ascending([x] + s)
  {
    if Ascending(s) && (forall y :: y in s ==> x < y) {
      forall i, j | 0 <= i < j < |[x] + s|
        ensures ([x] + s)[i] < ([x] + s)[j]
      {
        assert ([x] + s)[j] == s[j - 1];
        assert s[j - 1] in s;
      }
    }
  }

  /** Every element after the head of an ascending sequence exceeds the head. */
  lemma AscendingTail(s: seq<int>)
    requires |s| > 0
    ensures Ascending(s) ==> Ascending(s[1..]) && forall y :: y in s[1..] ==> s[0] < y
  {
  }

  /** The head of an ascending sequence is its least value, and the tail
      holds every other value. */
  lemma AscendingHead(s: seq<int>)
    requires Ascending(s) && |s| > 0
    ensures forall x :: x in Elems(s) ==> s[0] <= x
    ensures Elems(s[1..]) == Elems(s) - {s[0]}
  {
    ElemsCons(s);
  }

  /** Two strictly ascending sequences holding the same values are the same
      sequence: a value set has exactly one ascending listing. */
  lemma {:induction false} AscendingUnique(a: seq<int>, b: seq<int>)
    requires Ascending(a) && Ascending(b)
    requires Elems(a) == Elems(b)
    ensures a == b
  {
    AscendingCard(a);
    AscendingCard(b);
    if |a| > 0 {
      AscendingHead(a);
      AscendingHead(b);
      assert a[0] in Elems(a) && b[0] in Elems(b);
      assert a[0] == b[0];
      AscendingUnique(a[1..], b[1..]);
      assert a == [a[0]] + a[1..];
      assert b == [b[0]] + b[1..];
    }
  }

  /** A strictly ascending sequence has as many elements as distinct values. */
  lemma {:induction false} AscendingCard(s: seq<int>)
    requires Ascending(s)
    ensures |Elems(s)| == |s|
  {
    if |s| > 0 {
      ElemsCons(s);
      assert s[0] !in Elems(s[1..]);
      AscendingCard(s[1..]);
    }
  }

  /** The slice search of the standard library: it reports `Ok(i)` only for a
      position holding `key`, and on a sorted slice `Err(i)` is the insertion
      point, below which every element is smaller and from which every element
      is larger. On a slice that is not sorted the outcome is whatever the
      halving search below yields. */
  function BinarySearch(s: seq<int>, key: int): (r: SearchResult)
    ensures r.Ok? ==> r.index < |s| && s[r.index] == key
    ensures r.Err? ==> r.index <= |s|
    ensures Sorted(s) && r.Err? ==>
              (forall i :: 0 <= i < r.index ==> s[i] < key) &&
              (forall i :: r.index <= i < |s| ==> s[i] > key)
  {
    if |s| == 0 then Err(0) else HalvingSearch(s, key, 0, |s|)
  }

  /** The loop of the standard library's search: the window `[base, base+size)`
      is halved until one element is left, moving `base` up whenever the
      probed element is not greater than `key`. */
  function HalvingSearch(s: seq<int>, key: int, base: nat, size: nat): (r: SearchResult)
    requires 1 <= size && base + size <= |s|
    ensures r.Ok? ==> base <= r.index < base + size && s[r.index] == key
    ensures r.Err? ==> base <= r.index <= base + size
    ensures Sorted(s) && r.Err? &&
            (base > 0 ==> s[base] <= key) &&
            (forall i :: base + size <= i < |s| ==> s[i] > key) ==>
              (forall i :: 0 <= i < r.index ==> s[i] < key) &&
              (forall i :: r.index <= i < |s| ==> s[i] > key)
    decreases size
  {
    if size > 1 then
      var half := size / 2;
      var mid := base + half;
      HalvingSearch(s, key, if s[mid] > key then base else mid, size - half)
    else if s[base] == key then Ok(base)
    else if s[base] < key then Err(base + 1)
    else Err(base)
  }

  /** On a sorted slice the search finds `key` exactly when `key` is present. */
  lemma SearchFindsPresent(s: seq<int>, key: int)
    requires Sorted(s)
    ensures BinarySearch(s, key).Ok? <==> key in s
  {
    var r := BinarySearch(s, key);
    if r.Err? {
      assert forall i :: 0 <= i < |s| ==> s[i] != key;
    }
  }
}

=== FILE: words.dfy ===
/** Bitsets as sequences of 64-bit words (Rust's `u64`), the vocabulary shared
    by the bitset kernels: single bits, the four word operations, popcount
    and the membership test. Value `v` lives in word `v / 64` at bit
    `v % 64`. */
module Words {
  import opened Oracle

  /** `u64::MAX`: every bit set. */
  const AllOnes: bv64 := 0xFFFF_FFFF_FFFF_FFFF

  /** Bit `j` of a word. */
  predicate Bit(w: bv64, j: nat)
    requires j < 64
  {
    BitAt(w, j as bv64)
  }

  /** Bit `i % 64` of a word, with the position as a word itself. */
  predicate BitAt(w: bv64, i: bv64) {
    (w >> (i & 63)) & 1 == 1
  }

  /** The word operation behind each set operation: `|`, `&`, `& !` and `^`. */
  function Apply(op: OpType, x: bv64, y: bv64): bv64 {
    match op
    case Or => x | y
    case And => x & y
    case AndNot => x & !y
    case Xor => x ^ y
  }

  /** A word operation acts bit by bit as the truth table of its set operation. */
  lemma ApplyBit(op: OpType, x: bv64, y: bv64, j: nat)
    requires j < 64
    ensures Bit(Apply(op, x, y), j) <==> OpHolds(op, Bit(x, j), Bit(y, j))
  {
    match op
    case Or => OrBit(x, y, j);
    case And => AndBit(x, y, j);
    case AndNot => AndNotBit(x, y, j);
    case Xor => XorBit(x, y, j);
  }

  lemma OrBit(x: bv64, y: bv64, j: nat)
    requires j < 64
    ensures Bit(Apply(Or, x, y), j) <==> Bit(x, j) || Bit(y, j)
  {
    OrBitAt(x, y, j as bv64);
    assert Apply(Or, x, y) == x | y;
  }

  lemma OrBitAt(x: bv64, y: bv64, i: bv64)
    ensures BitAt(x | y, i) <==> BitAt(x, i) || BitAt(y, i)
  {
  }

  lemma AndBit(x: bv64, y: bv64, j: nat)
    requires j < 64
    ensures Bit(Apply(And, x, y), j) <==> Bit(x, j) && Bit(y, j)
  {
    AndBitAt(x, y, j as bv64);
    assert Apply(And, x, y) == x & y;
  }

  lemma AndBitAt(x: bv64, y: bv64, i: bv64)
    ensures BitAt(x & y, i) <==> BitAt(x, i) && BitAt(y, i)
  {
  }

  lemma AndNotBit(x: bv64, y: bv64, j: nat)
    requires j < 64
    ensures Bit(Apply(AndNot, x, y), j) <==> Bit(x, j) && !Bit(y, j)
  {
    AndNotBitAt(x, y, j as bv64);
    assert Apply(AndNot, x, y) == x & !y;
  }

  lemma AndNotBitAt(x: bv64, y: bv64, i: bv64)
    ensures BitAt(x & !y, i) <==> BitAt(x, i) && !BitAt(y, i)
  {
  }

  lemma XorBit(x: bv64, y: bv64, j: nat)
    requires j < 64
    ensures Bit(Apply(Xor, x, y), j) <==> (Bit(x, j) && !Bit(y, j)) || (!Bit(x, j) && Bit(y, j))
  {
    assert Apply(Xor, x, y) == x ^ y;
    XorBitAt(x, y, j as bv64);
  }

  lemma XorBitAt(x: bv64, y: bv64, i: bv64)
    ensures BitAt(x ^ y, i) <==> (BitAt(x, i) && !BitAt(y, i)) || (!BitAt(x, i) && BitAt(y, i))
  {
  }

  /** No bit of the zero word is set; every bit of `u64::MAX` is. */
  lemma ConstantBits(j: nat)
    requires j < 64
    ensures !Bit(0, j) && Bit(AllOnes, j)
  {
  }

  /** The number of set bits among the lowest `n` bits of a word. */
  function CountBits(w: bv64, n: nat): (r: nat)
    requires n <= 64
    ensures r <= n
  {
    if n == 0 then 0 else CountBits(w, n - 1) + (if Bit(w, n - 1) then 1 else 0)
  }

  /** `u64::count_ones`. */
  function Popcount(w: bv64): (r: nat)
    ensures r <= 64
  {
    CountBits(w, 64)
  }

  /** The zero word has no set bit and `u64::MAX` has 64. */
  lemma {:induction false} CountBitsConstants(n: nat)
    requires n <= 64
    ensures CountBits(0, n) == 0 && CountBits(AllOnes, n) == n
  {
    if n > 0 {
      ConstantBits(n - 1);
      CountBitsConstants(n - 1);
    }
  }

  /** Per word, |x ∪ y| + |x ∩ y| = |x| + |y|. */
  lemma {:induction false} CountBitsInclusionExclusion(x: bv64, y: bv64, n: nat)
    requires n <= 64
    ensures CountBits(Apply(Or, x, y), n) + CountBits(Apply(And, x, y), n) == CountBits(x, n) + CountBits(y, n)
  {
    if n > 0 {
      ApplyBit(Or, x, y, n - 1);
      ApplyBit(And, x, y, n - 1);
      CountBitsInclusionExclusion(x, y, n - 1);
    }
  }

  /** `cardinality`: the sum of the popcounts of the words. */
  function Cardinality(words: seq<bv64>): (r: nat)
    ensures r <= 64 * |words|
  {
    if |words| == 0 then 0 else Popcount(words[0]) + Cardinality(words[1..])
  }

  /** Cardinality adds up over a concatenation. */
  lemma {:induction false} CardinalityAppend(s: seq<bv64>, t: seq<bv64>)
    ensures Cardinality(s + t) == Cardinality(s) + Cardinality(t)
  {
    if |s| > 0 {
      assert (s + t)[1..] == s[1..] + t;
      CardinalityAppend(s[1..], t);
    } else {
      assert s + t == t;
    }
  }

  /** Membership of value `v` in a bitset. */
  predicate Contains(words: seq<bv64>, v: int) {
    0 <= v && v / 64 < |words| && Bit(words[v / 64], v % 64)
  }

  /** Word `k` of a bitset, reading missing words as zero. */
  function Word(s: seq<bv64>, k: nat): bv64 {
    if k < |s| then s[k] else 0
  }

  /** Membership read through `Word`: missing words hold no value. */
  lemma ContainsByWord(s: seq<bv64>, v: int)
    requires 0 <= v
    ensures Contains(s, v) <==> Bit(Word(s, v / 64), v % 64)
  {
    ConstantBits(v % 64);
  }

  /** Every set operation maps two empty words to an empty word. */
  lemma ApplyZero(op: OpType)
    ensures Apply(op, 0, 0) == 0
  {
  }

  /** The word-by-word result of `op` over the first `n` words, reading
      missing words as zero. */
  function Combine(op: OpType, a: seq<bv64>, b: seq<bv64>, n: nat): (r: seq<bv64>)
    ensures |r| == n
    ensures forall k :: 0 <= k < n ==> r[k] == Apply(op, Word(a, k), Word(b, k))
  {
    seq(n, k requires 0 <= k => Apply(op, Word(a, k), Word(b, k)))
  }

  /** As long as `n` reaches past every word where `op` can yield a set bit,
      the combined words hold exactly the values the truth table of `op`
      admits. */
  lemma CombineContains(op: OpType, a: seq<bv64>, b: seq<bv64>, n: nat, v: int)
    requires forall k :: n <= k < |a| || n <= k < |b| ==> Apply(op, Word(a, k), Word(b, k)) == 0
    ensures Contains(Combine(op, a, b, n), v) <==> OpHolds(op, Contains(a, v), Contains(b, v))
  {
    if 0 <= v {
      var k := v / 64;
      var j := v % 64;
      var c := Combine(op, a, b, n);
      ContainsByWord(a, v);
      ContainsByWord(b, v);
      ContainsByWord(c, v);
      assert Apply(op, Word(a, k), Word(b, k)) == Word(c, k) by {
        if k >= n && k >= |a| && k >= |b| {
          WordBeyond(op, a, b, k);
        }
      }
      ApplyBit(op, Word(a, k), Word(b, k), j);
    }
  }

  /** Beyond both operands, `op` yields the empty word. */
  lemma WordBeyond(op: OpType, a: seq<bv64>, b: seq<bv64>, k: nat)
    requires k >= |a| && k >= |b|
    ensures Apply(op, Word(a, k), Word(b, k)) == 0
  {
    ApplyZero(op);
  }
}

=== FILE: wrappers.dfy ===
/** Small result types shared by the whole model. */
module Wrappers {

  /** Rust's `Option<T>`. */
  datatype Option<+T> = None | Some(value: T)

  /** Rust's `Result<usize, usize>` as returned by a slice search: `Ok` carries
      the index of a matching element, `Err` the position where the key would
      have to be inserted to keep the slice sorted. */
  datatype SearchResult = Ok(index: nat) | Err(index: nat)

  /** What running a routine can end in: a value, a panic (a failed `assert!`,
      an arithmetic underflow in a debug build, an out-of-bounds index), or a
      loop that never exits. */
  datatype Exec<+T> = Returns(value: T) | Panics | Diverges
}
